=== FILE: README.md ===
# Excalidraw collaboration storage, flowchart builder and toolbar — a Dafny model

This project models the parts of an Excalidraw fork that hold decisions of
their own. Rendering, the React state around them and the network are not
modelled. The parts are:

- **Scene sync** (`excalidraw-app/data/supabase.ts`). A room's scene is saved
  to a `scenes` table and loaded back from it. The scene is AES-encrypted and
  the iv and ciphertext columns are base64 text. A per-socket version cache
  skips saves of a scene that is already stored. A save reconciles the local
  elements with the stored ones before it upserts the row.
- **File batches** (same file). Binary files are uploaded to the
  `excalidraw-files` bucket and downloaded back one id at a time. Every id is
  reported as saved or errored, or as loaded or errored.
- **Flowchart blueprints** (`flowchartUtils.tsx`). A list of node and edge
  blueprints becomes Excalidraw elements. Edges come first as arrows, each
  with an optional label text, and nodes follow as shapes with label texts.
  A module-wide counter numbers the ids.
- **Toolbar tools** (`shapes.tsx`). This is the tool table, its lasso
  variant and the keyboard lookup over it.
- **Toolbar predicates** (`Actions.tsx`). These decide whether the stroke
  picker, the fill picker and the arrowhead controls show, whether the
  merged-shapes button is lit, and what text the shortcut label has.
- **Style picker** (`StylePicker.tsx`). This is the colour swatch, its
  transparent indicator, and the choice of target elements.
- **Graph-paper templates** (`Graphs.tsx` and `FlowchartDropdown.tsx`). These
  are the 14×14 grid and the 7×7 axes generators. The model also covers the
  element, text and arrow factories that `FlowchartDropdown.tsx` uses for
  its two hand-built flowcharts.

## How the model reads the code

- The helpers the core calls without defining them are function-valued
  parameters, so every property holds for all of them. These are:
  - scene version, reconciliation, restoration, syncable filtering;
  - JSON and UTF-8;
  - the cipher, whose encryption and decryption may each refuse (a throw);
  - file decompression;
  - the storage backend's failures;
  - the border-intersection geometry;
  - `hasStrokeColor` and `hasBackground`.

  Where a round trip needs an assumption about one of them (decryption
  inverts encryption, parsing inverts serialising), the lemma states it as a
  `requires`.
- `Math.random()` and `Date.now()` become an `Entropy` record: seed, version
  nonce, update time, id clock and id token. An element draws its record from
  its counter value or its position in the generated list. `Date.now()` in
  the file loader and the cipher's fresh iv are plain parameters.
- Base64 follows section 4 of RFC 4648 for `btoa`. `atob` follows the
  WHATWG forgiving-base64 decoder: it strips ASCII whitespace, allows
  missing padding, and rejects everything else.
- The `{...base, ...extra}` spread is `Elements.Spread`. Each field of
  `Extra` is present or absent, and a present field always wins.
- JavaScript truthiness of strings, `||` and `??` are explicit (`Truthy`,
  `OrElse`, `GetOr`). So are `Array.prototype.toString` on key arrays and the
  `"undefined"` that an empty numeric-key array puts into a template string.
- Looking an id up in the plain selection object also finds the properties
  every object inherits from `Object.prototype` (`constructor`, `toString`,
  `__proto__` and the rest), which are truthy. `StylePicker.Selected` models
  this: an id the map does not own is selected when it names one of them.
  Generated ids contain `-` and never do; an id an element was given can.
- Failures that the source throws become a `Result` failure, for example a
  refused upsert or a failed decryption. Where the source swallows a failure
  and carries on, so does the model.

Where the written description of the system and the code differ, the model
follows the code:
- `saveToSupabase` ignores the `error` of its select. A select that fails
  counts as "no existing row", and the save goes ahead with the local
  elements alone.
- For an edge with explicit points, the source's comment says its label is
  handled below, but no label is ever drawn. `EdgeOutcome` states that.
- `lastRetrieved` of a downloaded file is the file's `created` time, not the
  time of the download.

## Model

| member | source | states |
|---|---|---|
| `SceneSync.CachedVersion` | excalidraw-app/data/supabase.ts:55-57 | the cache answers for a socket exactly when a version was recorded for it, and answers that version |
| `SceneSync.RecordVersion` | excalidraw-app/data/supabase.ts:58-63 | recording adds the socket and stores the scene's version; every other socket keeps its entry |
| `SceneSync.IsSavedToSupabase` | excalidraw-app/data/supabase.ts:295-305 | without socket, room id and key the scene counts as saved; with them it is saved iff the socket's cached version equals the scene version, and a socket with no entry is never saved |
| `SceneSync.SelectScene` | excalidraw-app/data/supabase.ts:129-133 | `.single()` returns the room's row iff the backend answers and the row exists; otherwise it returns an error, which is "no rows" for a missing room |
| `SceneSync.UpsertScene` | excalidraw-app/data/supabase.ts:155-157 | an accepted upsert replaces the row keyed by its id; a refused one changes nothing; no other row changes either way |
| `SceneSync.CreateSceneDocument` | excalidraw-app/data/supabase.ts:93-109 | it throws an encryption error exactly when the cipher refuses the key; otherwise the row carries the room id and scene version, its iv and ciphertext columns base64-decode to exactly the nonce and the encrypted serialised scene, and both timestamps are the current time |
| `SceneSync.DecryptElements` | excalidraw-app/data/supabase.ts:78-91 | a column that is not valid base64 is a malformed-data failure, a cipher rejection is an authentication failure, and nothing else fails; the scene comes back exactly when both columns decode, the cipher accepts them and the plaintext parses, and it is the parsed plaintext |
| `SceneSync.DocumentRoundTrip` | excalidraw-app/data/supabase.ts:78-109 | decrypting a row that was created gives back the stored scene when the cipher and JSON round-trip |
| `SceneSync.ElementsToPersist` | excalidraw-app/data/supabase.ts:128-150 | with no row, or a failed select, the local elements are stored as they are; otherwise the syncable result of reconciling local with the restored remote scene, or the remote row's decryption failure |
| `SceneSync.SaveToSupabase` | excalidraw-app/data/supabase.ts:112-172 | no room or an already-saved scene gives null and no change; a throw changes neither table nor cache; a refused upsert throws; a refused encryption is rethrown before the upsert; a completed save writes exactly the row of the returned elements and caches their version; every gated save with an accepted upsert completes, or rethrows the decryption or encryption failure |
| `SceneSync.SavedAfterSave` | excalidraw-app/data/supabase.ts:124-126 | after a completed save the returned elements count as saved, so saving them again is a no-op |
| `SceneSync.FailedSaveIsRetried` | excalidraw-app/data/supabase.ts:159-171 | a save that throws leaves the scene unsaved, so a retry is not skipped |
| `SceneSync.FirstSaveStoresLocal` | excalidraw-app/data/supabase.ts:135-170 | saving into a room without a row stores the local elements unchanged, under their own scene version, unless the cipher refuses them, in which case the save throws and changes nothing |
| `SceneSync.LoadFromSupabase` | excalidraw-app/data/supabase.ts:175-206 | a failed select or a missing row loads null and leaves the cache; a row that is there loads as its decrypted scene, restored with invisible elements dropped and filtered to syncable ones, or rethrows its decryption failure with the cache unchanged; a load caches the scene's version for the socket, if any |
| `SceneSync.SaveThenLoad` | excalidraw-app/data/supabase.ts:112-206 | saving a scene to a new room and loading it back yields that scene, restored and filtered, when the cipher and JSON round-trip |
| `SceneSync.LoadedSceneIsSaved` | excalidraw-app/data/supabase.ts:197-199 | after a load over the portal's socket, the loaded scene counts as saved |
| `Base64.Encode` | excalidraw-app/data/supabase.ts:104-105 | `btoa` output is a multiple of four characters long and uses only the base64 alphabet and `=` |
| `Base64.Decode` | excalidraw-app/data/supabase.ts:83-84 | after whitespace and padding are stripped, `atob` throws exactly when the length leaves remainder 1 mod 4 or a character is outside the alphabet; otherwise it yields three bytes per four characters, rounded down |
| `Base64.RoundTrip` | excalidraw-app/data/supabase.ts:104-105 | decoding the encoding of any byte string gives back the bytes |
| `FileSync.SaveFilesToSupabase` | excalidraw-app/data/supabase.ts:209-244 | every file id lands in exactly one of saved and errored (as multisets), and no object is removed from the bucket |
| `FileSync.AcceptedAreSaved` | excalidraw-app/data/supabase.ts:222-234 | a file whose upload succeeds is saved and its object key is in the bucket (its bytes are stated by `FileSync.AcceptedBytesStored`) |
| `FileSync.RejectedAreErrored` | excalidraw-app/data/supabase.ts:235-238 | a file whose upload fails or throws is errored |
| `FileSync.UploadEachFile` | excalidraw-app/data/supabase.ts:222-238 | a file whose upload succeeds is saved and its object is in the bucket, holding that file's bytes unless a later accepted file of the same id overwrites it; a file whose upload fails or throws is errored |
| `FileSync.AcceptedBytesStored` | excalidraw-app/data/supabase.ts:222-234 | the object an accepted upload writes holds that file's bytes, unless a later accepted file of the same id overwrites it |
| `FileSync.ObjectKeyInjective` | excalidraw-app/data/supabase.ts:222 | distinct file ids under one prefix name distinct objects |
| `FileSync.UploadWitnesses` | excalidraw-app/data/supabase.ts:232-238 | every saved id belongs to a file whose upload succeeded, and every errored id to one whose upload failed |
| `FileSync.UploadOutcomes` | excalidraw-app/data/supabase.ts:219-241 | a file is saved, with its bytes stored under `prefix/id` unless a later accepted file of the same id overwrites them, when its own upload succeeds, and errored when it fails; every listed id comes from a file with that outcome |
| `FileSync.UploadTouchesOnlyItsKeys` | excalidraw-app/data/supabase.ts:222-228 | an object key that no accepted file writes keeps its presence and its bytes |
| `FileSync.UploadExtends` | excalidraw-app/data/supabase.ts:232-234 | one more file only appends to the saved or the errored list |
| `FileSync.UploadIsolation` | excalidraw-app/data/supabase.ts:219-243 | adding files to a batch does not change the outcomes of the files already in it |
| `FileSync.Dedupe` | excalidraw-app/data/supabase.ts:256 | `[...new Set(ids)]` has no repeats, the same members, and is no longer than the input |
| `FileSync.DedupeKeepsFirstOrder` | excalidraw-app/data/supabase.ts:256 | first occurrences keep their relative order |
| `FileSync.LoadOne` | excalidraw-app/data/supabase.ts:257-287 | a download succeeds exactly when the object exists, the request goes through, decompression succeeds and metadata is present; the record has the requested id, the decoded payload, a truthy MIME type or the binary one, and a non-zero creation time or the clock as both timestamps |
| `FileSync.LoadEach` | excalidraw-app/data/supabase.ts:255-289 | at most one record per id, each one the download of its own id |
| `FileSync.LoadOutcomes` | excalidraw-app/data/supabase.ts:255-289 | an id is errored iff its own download fails and loaded iff it succeeds; nothing outside the ids appears |
| `FileSync.LoadPartition` | excalidraw-app/data/supabase.ts:252-291 | over distinct ids, loaded records have distinct ids, no id is both loaded and errored, and loaded plus errored counts every id once |
| `FileSync.LoadFilesFromSupabase` | excalidraw-app/data/supabase.ts:247-292 | each requested id is errored iff its download fails and otherwise loaded with its own record; loaded ids are distinct, disjoint from the errored ones, and together they count the distinct ids |
| `FileSync.LoadDefaults` | excalidraw-app/data/supabase.ts:277-283 | each metadata field falls back on its own: a missing or empty MIME type to the binary one, a missing or zero creation time to the current time for both timestamps |
| `Flowchart.MakeUid` | packages/excalidraw/components/flowchartUtils.tsx:23-24 | an id records its prefix, the clock reading of its call and the pre-incremented counter |
| `Flowchart.UidsDistinct` | packages/excalidraw/components/flowchartUtils.tsx:23-24 | two calls that see different counter values never return the same id, whatever the prefix or clock |
| `Flowchart.CreateBase` | packages/excalidraw/components/flowchartUtils.tsx:26-53 | a fresh element whose type, stroke, fill, roundness and id come from `extra` when it gives them, and otherwise default to black, tan, `{type: 3}` for rectangles only, and the next counter id |
| `Flowchart.TextElem` | packages/excalidraw/components/flowchartUtils.tsx:55-67 | a transparent text element carrying the text as both text and original text, font size 14 and a baseline of exactly the larger of 12 and 0.8 of the height; its id takes the first of the two counter values it consumes |
| `Flowchart.ArrowFromPointsAbs` | packages/excalidraw/components/flowchartUtils.tsx:159-204 | a fresh arrow with an end arrowhead and `{type: 2}` corners, whose points are the given ones relative to the first |
| `Flowchart.ArrowBoundingBox` | packages/excalidraw/components/flowchartUtils.tsx:160-176 | the arrow keeps every point, and its box is the tight bounding box of the absolute points, widened to at least 1 on each axis |
| `Flowchart.Lookup` | packages/excalidraw/components/flowchartUtils.tsx:209 | lookup by id finds nothing iff no node has the id, and otherwise finds the last node with it |
| `Flowchart.AnchoredEdge` | packages/excalidraw/components/flowchartUtils.tsx:226-246 | an edge between resolved nodes gives its arrow, then a text carrying the label iff the label is truthy, with increasing counter ids |
| `Flowchart.EdgeCaption` | packages/excalidraw/components/flowchartUtils.tsx:239-246 | an edge label is a 60 by 20 text box carrying the label text |
| `Flowchart.EdgeToElements` | packages/excalidraw/components/flowchartUtils.tsx:214-248 | every edge yields an arrow first, plus a label text exactly when it is anchored and labelled |
| `Flowchart.EdgeOutcome` | packages/excalidraw/components/flowchartUtils.tsx:215-246 | an edge with explicit points is exactly one arrow through those points, unlabelled; a second element appears iff the edge is anchored and labelled, and it is the label's text |
| `Flowchart.EdgesToElements` | packages/excalidraw/components/flowchartUtils.tsx:214-248 | the edge loop consumes counter values in increasing order |
| `Flowchart.BaseStyle` | packages/excalidraw/components/flowchartUtils.tsx:252-256 | a shape's style always sets fill, stroke and roundness, and never its type or id |
| `Flowchart.NodeToElements` | packages/excalidraw/components/flowchartUtils.tsx:251-268 | a text node is one text; any other node is its shape, followed by a label text iff its label is truthy |
| `Flowchart.NodesToElements` | packages/excalidraw/components/flowchartUtils.tsx:251-268 | the node pass consumes counter values in increasing order |
| `Flowchart.BlueprintToElements` | packages/excalidraw/components/flowchartUtils.tsx:207-272 | the elements carry strictly increasing counter values, so no two share an id |
| `Flowchart.OneArrowPerEdge` | packages/excalidraw/components/flowchartUtils.tsx:214-248 | the edge pass yields exactly one arrow per edge |
| `Flowchart.NodesMakeNoArrows` | packages/excalidraw/components/flowchartUtils.tsx:251-268 | the node pass yields no arrows |
| `Flowchart.ArrowsMatchEdges` | packages/excalidraw/components/flowchartUtils.tsx:207-272 | the whole conversion holds exactly one arrow per edge |
| `Flowchart.EdgesBeforeNodes` | packages/excalidraw/components/flowchartUtils.tsx:270-271 | edge elements come first and carry smaller counter values than every node element |
| `Flowchart.DanglingEdgeFallback` | packages/excalidraw/components/flowchartUtils.tsx:219-225 | an edge with an unresolved endpoint is the fallback arrow alone: at the origin, one unit wide and high |
| `Flowchart.NodeStyleDefaults` | packages/excalidraw/components/flowchartUtils.tsx:252-262 | a shape takes the node's non-nullish colours and roundness, and otherwise tan, black and `{type: 3}` for rectangles only |
| `Flowchart.ShapeLabelPlacement` | packages/excalidraw/components/flowchartUtils.tsx:263-267 | a shape's label sits 6 in from its left edge and the larger of 6 and a third of the node's height below its top, is 12 narrower than the node and as high as the larger of 20 and a third of the node's height, and carries the node's label |
| `Flowchart.TextNodeIsOneText` | packages/excalidraw/components/flowchartUtils.tsx:258-260 | a text node becomes one text element with its label, or empty text without one |
| `Shapes.ToolbarTools` | packages/excalidraw/components/shapes.tsx:132-150 | the toolbar is the table, except that in lasso mode the lasso replaces the first entry and nothing else changes |
| `Shapes.Matches` | packages/excalidraw/components/shapes.tsx:157-163 | a tool matches a key iff the key is one of its shortcuts: its numeric key's text, its letter key when non-empty, or an item of its key list |
| `Shapes.FirstMatch` | packages/excalidraw/components/shapes.tsx:156-164 | the search stops at the earliest matching tool, and finds none only when no tool matches |
| `Shapes.FindShapeByKey` | packages/excalidraw/components/shapes.tsx:155-166 | the tool found is the earliest one in toolbar order whose shortcut matches, and nothing is found iff no tool matches |
| `Shapes.SelectsEarliest` | packages/excalidraw/components/shapes.tsx:155-166 | a key selects the first toolbar entry it matches, whatever later entries match |
| `Shapes.SelectsNothing` | packages/excalidraw/components/shapes.tsx:155-166 | a key that matches neither the first entry nor any later table entry selects nothing |
| `Shapes.ValuesDistinct` | packages/excalidraw/components/shapes.tsx:27-128 | no two tools share a value |
| `Shapes.DigitOneSelectsFirstTool` | packages/excalidraw/components/shapes.tsx:119-125 | the digit 1, also claimed by the style picker, selects the hand tool (the lasso in lasso mode), never the style picker |
| `Shapes.LetterZSelectsStylePicker` | packages/excalidraw/components/shapes.tsx:119-125 | `z` selects the style picker |
| `Shapes.CanvasBackgroundOnlyByLetter` | packages/excalidraw/components/shapes.tsx:68-73 | the canvas-background tool answers to `B` and to nothing else |
| `Shapes.LowerCaseBSelectsNothing` | packages/excalidraw/components/shapes.tsx:155-166 | keys compare case-sensitively: `b` selects no tool |
| `Shapes.LassoTakesLetterV` | packages/excalidraw/components/shapes.tsx:134-144 | in lasso mode `v` selects the lasso, not the selection tool |
| `Actions.KeepCommon` | packages/excalidraw/components/Actions.tsx:112-117 | the common type survives the loop iff every target has it |
| `Actions.CommonSelectedType` | packages/excalidraw/components/Actions.tsx:110-118 | there is a common type iff the first target's type is non-empty and every target has it; it is then that type |
| `Actions.CanChangeStrokeColor` | packages/excalidraw/components/Actions.tsx:106-128 | the stroke picker shows when some target takes a stroke, and when the tool takes one unless the selection is all images or all frames, in which case it is hidden if no target takes a stroke; with no targets it follows the tool alone; nothing else shows it |
| `Actions.StrokePickerCanDisappear` | packages/excalidraw/components/Actions.tsx:106-128 | unlike the fill picker, the stroke picker is not monotone: a stroke tool shows it over no targets and loses it once a lone image is selected |
| `Actions.MixedSelectionIsNotUniform` | packages/excalidraw/components/Actions.tsx:110-118 | two different types among the targets leave no common type |
| `Actions.CanChangeBackgroundColor` | packages/excalidraw/components/Actions.tsx:142-155 | the fill picker shows exactly when the tool or some target is a toolbar shape or has a background; a toolbar shape shows it whatever `hasBackground` says |
| `Actions.BackgroundGrowsWithSelection` | packages/excalidraw/components/Actions.tsx:142-155 | selecting more types never hides the fill picker, and only which types are selected matters |
| `Actions.LinearImpliesBackground` | packages/excalidraw/components/Actions.tsx:142-168 | wherever the linear controls show, the fill picker shows too |
| `Actions.HasLinearElements` | packages/excalidraw/components/Actions.tsx:158-168 | the linear controls show exactly when the tool or some target is an arrow, a line or a freehand stroke, all of which are toolbar shapes |
| `Actions.LinearGrowsWithSelection` | packages/excalidraw/components/Actions.tsx:158-168 | selecting more types never hides the linear controls |
| `Actions.MergedShapesSelected` | packages/excalidraw/components/Actions.tsx:1163-1169 | the merged-shapes button is lit only for toolbar shapes, and among them exactly for all but freehand and text |
| `Actions.MergedShapesAreToolbarShapes` | packages/excalidraw/components/Actions.tsx:1163-1169 | the merged-shapes button is lit for exactly rectangle, diamond, ellipse, arrow and line, all of them toolbar shapes, and not for freehand or text |
| `Actions.Capitalize` | packages/excalidraw/components/Actions.tsx:1415 | capitalising upper-cases a leading ASCII lower-case letter, keeps the rest, and leaves any other string alone |
| `Actions.LetterPart` | packages/excalidraw/components/Actions.tsx:1414-1415 | the letter part fails, as the source throws, exactly for an empty key array |
| `Actions.ShortcutLabel` | packages/excalidraw/components/Actions.tsx:1414-1430 | the label exists iff the key is not an empty array; with a truthy letter it is exactly "Letter or " followed by the numeric part, and otherwise the numeric part alone |
| `Actions.ShortcutLabelShape` | packages/excalidraw/components/Actions.tsx:1413-1430 | a lower-case letter key gives "Letter or n"; a missing or empty letter key gives the numeric part alone |
| `Actions.ShortcutLabelFirstNumeric` | packages/excalidraw/components/Actions.tsx:1419-1427 | an array numeric key labels like its first item |
| `Actions.ShortcutLabelNumericForms` | packages/excalidraw/components/Actions.tsx:1417-1430 | an empty numeric string labels like no numeric key, and an empty numeric array puts `undefined` into the label |
| `StylePicker.CurrentColor` | packages/excalidraw/components/StylePicker.tsx:19 | the swatch shows the stroke colour if set, else the fill colour if set, else black; it is never empty |
| `StylePicker.TransparentIndicatorCases` | packages/excalidraw/components/StylePicker.tsx:40 | the indicator shows iff the colour on show is a transparent spelling: the stroke's when it is set, otherwise the fill's |
| `StylePicker.Picked` | packages/excalidraw/components/StylePicker.tsx:59-73 | selection never lengthens the list |
| `StylePicker.GetTargetElements` | packages/excalidraw/components/StylePicker.tsx:59-73 | the targets are the selected elements in map order; an element is a target iff it is in the map and its lookup is truthy; with no selection the targets are those of an empty map, none unless an id names an inherited property |
| `StylePicker.PickedConcat` | packages/excalidraw/components/StylePicker.tsx:65-69 | picking from a concatenation is concatenating the picks, so order is kept |
| `StylePicker.NothingSelected` | packages/excalidraw/components/StylePicker.tsx:63-67 | no selection map behaves as an empty one, and gives no targets unless an id names an inherited property |
| `StylePicker.InheritedIdIsPicked` | packages/excalidraw/components/StylePicker.tsx:63-67 | an element whose id names an `Object.prototype` property the map does not own is a target, with or without a map |
| `StylePicker.EverythingSelected` | packages/excalidraw/components/StylePicker.tsx:65-69 | when every element is selected, the targets are all elements in order |
| `Templates.CreateElement` | packages/excalidraw/components/Graphs.tsx:11-38 | a fresh, thin, black, transparent element without roundness, with each field `extra` gives overriding its default |
| `Templates.ExtraOverridesEveryDefault` | packages/excalidraw/components/Graphs.tsx:37 | an `extra` naming every overridable field replaces every default |
| `Templates.Generate14x14Grid` | packages/excalidraw/components/Graphs.tsx:41-74 | fifteen vertical 420-long lines at x = 100 + 30i, then fifteen horizontal ones at y = 100 + 30i |
| `Templates.GridClosesSquare` | packages/excalidraw/components/Graphs.tsx:52-67 | the lines are 30 apart and every vertical line spans every horizontal one and the reverse |
| `Templates.Generate7x7Axes` | packages/excalidraw/components/Graphs.tsx:77-157 | fifteen vertical and fifteen horizontal lines at offsets −7 to 7 around (300, 300), heavy and black only at offset 0, then four arrowheads right, up, left and down |
| `Templates.AxesHighlightOnlyCentre` | packages/excalidraw/components/Graphs.tsx:88-107 | exactly the two axis lines are heavy and black, they cross at the centre, and each spans 90 to 510 |
| `Templates.ArrowheadsAtAxisEnds` | packages/excalidraw/components/Graphs.tsx:110-150 | each arrowhead starts at an axis end and points away from the centre |
| `DropdownHelpers.CreateShape` | packages/excalidraw/components/FlowchartDropdown.tsx:184-216 | a fresh element at the given position and size, with tan fill, black width-2 stroke and `{type: 3}` corners exactly for rectangles, each overridden by `extra` |
| `DropdownHelpers.CreateElementLocal` | packages/excalidraw/components/FlowchartDropdown.tsx:422-451 | a fresh element at the given position and size whose fill is `extra`'s background whenever it is given, even an empty one, and tan otherwise |
| `DropdownHelpers.LocalFallbackIsOverwritten` | packages/excalidraw/components/FlowchartDropdown.tsx:431 | the `||` fallback never decides anything: the local factory builds what the shared one builds, and an empty given fill stays empty |
| `DropdownHelpers.CreateText` | packages/excalidraw/components/FlowchartDropdown.tsx:218-257 | a transparent 16-pixel text element carrying the text, with the box height as its baseline |
| `DropdownHelpers.CreateArrow` | packages/excalidraw/components/FlowchartDropdown.tsx:259-296 | an arrow through the given points whose width and height are the distances from the first point to the last |
| `DropdownHelpers.ArrowExtentWithinBoundingBox` | packages/excalidraw/components/FlowchartDropdown.tsx:264-265 | the extent never exceeds the points' bounding box, and equals it for a two-point arrow |
| `DropdownHelpers.ArrowExtentIgnoresMiddle` | packages/excalidraw/components/FlowchartDropdown.tsx:497-498 | the middle points of an elbow arrow do not affect its extent |

`FlowchartDropdown.tsx:7-34`, `55-88` and `91-171` repeat `Graphs.tsx:11-38`,
`41-74` and `77-157`. They differ only in indentation and in which UI flag they
clear afterwards, so the `Templates` members model both. `createTextLocal` and `createArrowLocal`
(`FlowchartDropdown.tsx:453-526`) are `createText` and `createArrow` under
other names, so `CreateText` and `CreateArrow` model both pairs.

## Left out

- The Supabase client, its configuration check and the transport (`supabase.ts:1-40`) are not modelled. Each request's outcome is a parameter: a fault for the table, `rejects` and `fails` for the bucket. `rejects` sees an upload's object key and bytes only, so two uploads of the same id and bytes in one batch get the same outcome, where concurrent requests can succeed and fail independently.
- `Promise.all` runs uploads and downloads concurrently and pushes results in completion order. The model folds them in input order, and the contracts compare the lists as multisets or sets.
- The `WeakMap` keyed by socket objects becomes a map keyed by socket identity. Garbage collection of dead sockets is not modelled.
- `appState`, which is passed through to reconciliation, is not modelled. Reconciliation is a parameter.
- `String.fromCharCode(...bytes)` is not modelled as throwing on very large arrays (the engine's argument limit). The model treats it as total.
- The AES-GCM cipher, `compressData`/`decompressData`, JSON and UTF-8 are parameters, because their code is not part of this model.
- `rectBorderIntersection`, `diamondBorderIntersection` and `perpOffset` are not modelled. They are floating-point geometry (`flowchartUtils.tsx:73-156`) and are parameters of `Flowchart.Geometry`. Coordinates are reals, not IEEE doubles.
- `Math.random()`, `Date.now()` and the cipher's iv are parameters (`Entropy`, `now`, `iv`).
- `SceneSync.CreateSceneDocument` sets both timestamps from one clock reading, `now`. The source calls `new Date()` twice, so `created_at` and `updated_at` can differ by a clock tick.
- `FileSync.AcceptedBytesStored` states the stored bytes only for a file that no later accepted file of the same id follows. With concurrent uploads of one id, the bytes that survive are those of whichever upload finishes last, which the input order does not determine.
- `loadFilesFromSupabase` reads `Date.now()` twice when a file has no creation time. The model reads the clock once, so both timestamps are equal.
- Elements do not model the fields that the code only ever sets to constants: `groupIds`, `frameId`, `boundElements`, `link`, bindings, `containerId`, `lastCommittedPoint`, `startArrowhead`. Text elements carry `fontFamily`, alignment and line height in `TextProps`.
- `Flowchart.ArrowFromPointsAbs` requires at least one point, where the source would throw on an empty list. Every call site passes two or more points.
- `DropdownHelpers.CreateArrow` requires at least one point for the same reason. Every call site passes two or three points.
- `StylePicker.GetTargetElements` treats an own map entry for `__proto__` like any other entry. In JavaScript an assignment to that key changes the prototype instead of adding an entry.
- `Actions.Capitalize` upper-cases ASCII letters only. `capitalizeString` uses JavaScript's full Unicode `toUpperCase`.
- The `Actions` predicates take the targets as their element types, because they read nothing else. The translated word for "or" is a parameter.
- `Shapes` takes `KEYS.H`, `KEYS.V` and the rest to be the lower-case letters, and `KEYS["1"]`–`KEYS["9"]` to be the digit strings. Icons are not modelled.
- `generateFlowchart` and `generateFlowchart3` lay out fixed hand-placed diagrams (`FlowchartDropdown.tsx:173-405` and `409-651`). Their factories are modelled; the coordinates of each diagram are not.
- The React components, dropdown state, CSS, logging (`console.log`/`console.error`), the logo, the library menu buttons and the syntax-check script are not modelled. They are UI or tooling with no logic to state.

=== FILE: actions.dfy ===
/** The capability predicates and the toolbar shortcut label of
    packages/excalidraw/components/Actions.tsx. They read only the `type` of
    the active tool and of each target element, so targets are given as
    their types. `hasStrokeColor`, `hasBackground` and the translated word
    for "or" come from code outside this model and are parameters. */
module Actions {
  import opened Outcomes

  /** The loop over the targets: `common` survives while every type equals it. */
  function KeepCommon(common: Option<string>, types: seq<string>): (r: Option<string>)
    ensures r.Some? ==> common.Some? && r == common
    ensures r.Some? <==> common.Some? && forall i :: 0 <= i < |types| ==> types[i] == common.value
    decreases |types|
  {
    if common.None? || |types| == 0 then common
    else if types[0] != common.value then None
    else KeepCommon(common, types[1..])
  }

  /** `commonSelectedType`: starts from the first target's type (`null` when
      there is none or it is empty), and drops to `null` at the first
      target of another type. */
  function CommonSelectedType(types: seq<string>): (r: Option<string>)
    ensures r.Some? <==> |types| > 0 && Truthy(types[0]) && forall i :: 0 <= i < |types| ==> types[i] == types[0]
    ensures r.Some? ==> r.value == types[0]
  {
    var start := if |types| > 0 && Truthy(types[0]) then Some(types[0]) else None;
    KeepCommon(start, types)
  }

  /** The selection is all of one of the types that never take a stroke colour. */
  predicate UniformlyStrokeless(types: seq<string>) {
    var c := CommonSelectedType(types);
    c == Some("image") || c == Some("frame") || c == Some("magicframe")
  }

  predicate SomeHas(types: seq<string>, has: string -> bool) {
    exists i :: 0 <= i < |types| && has(types[i])
  }

  /** `canChangeStrokeColor(appState, targetElements)`: the stroke colour
      picker shows for the tool unless the whole selection is images or
      frames, and always when some target takes a stroke. */
  function CanChangeStrokeColor(toolType: string, types: seq<string>, hasStrokeColor: string -> bool): (r: bool)
    ensures SomeHas(types, hasStrokeColor) ==> r
    ensures |types| == 0 ==> (r <==> hasStrokeColor(toolType))
    ensures UniformlyStrokeless(types) && !SomeHas(types, hasStrokeColor) ==> !r
    ensures !UniformlyStrokeless(types) && hasStrokeColor(toolType) ==> r
    // and nothing else shows it
    ensures r ==> SomeHas(types, hasStrokeColor) || (hasStrokeColor(toolType) && !UniformlyStrokeless(types))
  {
    var common := CommonSelectedType(types);
    || (hasStrokeColor(toolType) && common != Some("image") && common != Some("frame") && common != Some("magicframe"))
    || exists i :: 0 <= i < |types| && hasStrokeColor(types[i])
  }

  /** A mixed selection never counts as uniformly strokeless. */
  lemma MixedSelectionIsNotUniform(types: seq<string>, i: nat, j: nat)
    requires i < |types| && j < |types| && types[i] != types[j]
    ensures CommonSelectedType(types).None?
    ensures !UniformlyStrokeless(types)
  {
  }

  /** Unlike the fill picker, the stroke picker is not monotone in the
      selection: a tool that takes a stroke shows it over no targets, and
      loses it once a lone image is selected, unless images take a stroke. */
  lemma StrokePickerCanDisappear(toolType: string, hasStrokeColor: string -> bool)
    requires hasStrokeColor(toolType) && !hasStrokeColor("image")
    ensures CanChangeStrokeColor(toolType, [], hasStrokeColor)
    ensures !CanChangeStrokeColor(toolType, ["image"], hasStrokeColor)
  {
    assert CommonSelectedType(["image"]) == Some("image");
  }

  /** The shapes the toolbar always offers a fill colour for. */
  const ToolbarShapes: seq<string> := ["rectangle", "ellipse", "diamond", "arrow", "line", "freedraw", "text"]

  /** Every type of `a` also occurs in `b`. */
  predicate TypesWithin(a: seq<string>, b: seq<string>) {
    forall i :: 0 <= i < |a| ==> a[i] in b
  }

  /** `canChangeBackgroundColor(appState, targetElements)`. A toolbar shape,
      as the tool or as any target, shows the fill picker whatever
      `hasBackground` says. */
  function CanChangeBackgroundColor(toolType: string, types: seq<string>, hasBackground: string -> bool): (r: bool)
    ensures toolType in ToolbarShapes ==> r
    ensures (exists i :: 0 <= i < |types| && types[i] in ToolbarShapes) ==> r
    ensures |types| == 0 ==> (r <==> toolType in ToolbarShapes || hasBackground(toolType))
    // the picker shows exactly when the tool or some selected type is a toolbar shape or has a background
    ensures r <==> || toolType in ToolbarShapes || hasBackground(toolType)
                   || exists t :: t in types && (t in ToolbarShapes || hasBackground(t))
  {
    || toolType in ToolbarShapes
    || (exists i :: 0 <= i < |types| && types[i] in ToolbarShapes)
    || hasBackground(toolType)
    || exists i :: 0 <= i < |types| && hasBackground(types[i])
  }

  /** Selecting more never hides the fill picker, and it depends only on
      which types are selected, not on their order or multiplicity. */
  lemma BackgroundGrowsWithSelection(toolType: string, a: seq<string>, b: seq<string>, hasBackground: string -> bool)
    requires TypesWithin(a, b)
    ensures CanChangeBackgroundColor(toolType, a, hasBackground) ==> CanChangeBackgroundColor(toolType, b, hasBackground)
  {
    if exists i :: 0 <= i < |a| && a[i] in ToolbarShapes {
      var i :| 0 <= i < |a| && a[i] in ToolbarShapes;
      var j :| 0 <= j < |b| && b[j] == a[i];
      assert b[j] in ToolbarShapes;
    } else if exists i :: 0 <= i < |a| && hasBackground(a[i]) {
      var i :| 0 <= i < |a| && hasBackground(a[i]);
      var j :| 0 <= j < |b| && b[j] == a[i];
      assert hasBackground(b[j]);
    }
  }

  const LinearTypes: seq<string> := ["arrow", "line", "freedraw"]

  /** The linear element kinds, as a set. */
  const LinearKinds: set<string> := {"arrow", "line", "freedraw"}

  /** `hasLinearElements(appState, targetElements)`. Every linear type is a
      toolbar shape, so the linear controls never show without the fill picker. */
  function HasLinearElements(toolType: string, types: seq<string>): (r: bool)
    ensures r <==> toolType in LinearKinds || exists t :: t in types && t in LinearKinds
    ensures r ==> toolType in ToolbarShapes || exists i :: 0 <= i < |types| && types[i] in ToolbarShapes
  {
    LinearTypesAreToolbarShapes();
    toolType in LinearTypes || exists i :: 0 <= i < |types| && types[i] in LinearTypes
  }

  lemma LinearTypesAreToolbarShapes()
    ensures forall t :: t in LinearTypes ==> t in ToolbarShapes
  {
  }

  /** Wherever the arrowhead and line controls show, so does the fill picker. */
  lemma LinearImpliesBackground(toolType: string, types: seq<string>, hasBackground: string -> bool)
    requires HasLinearElements(toolType, types)
    ensures CanChangeBackgroundColor(toolType, types, hasBackground)
  {
    if toolType !in LinearTypes {
      var i :| 0 <= i < |types| && types[i] in LinearTypes;
      assert types[i] in ToolbarShapes;
    }
  }

  /** Selecting more never hides the linear controls. */
  lemma LinearGrowsWithSelection(toolType: string, a: seq<string>, b: seq<string>)
    requires TypesWithin(a, b)
    ensures HasLinearElements(toolType, a) ==> HasLinearElements(toolType, b)
  {
    if HasLinearElements(toolType, a) && toolType !in LinearTypes {
      var i :| 0 <= i < |a| && a[i] in LinearTypes;
      var j :| 0 <= j < |b| && b[j] == a[i];
      assert b[j] in LinearTypes;
    }
  }

  const MergedShapes: seq<string> := ["rectangle", "diamond", "ellipse", "arrow", "line"]

  /** `mergedShapesSelected` inside `ShapesSwitcher`: lit for the toolbar
      shapes other than freehand and text, and for nothing else. */
  function MergedShapesSelected(toolType: string): (r: bool)
    ensures r ==> toolType in ToolbarShapes
    ensures toolType in ToolbarShapes ==> (r <==> toolType != "freedraw" && toolType != "text")
  {
    toolType in MergedShapes
  }

  /** The merged-shapes button lights up for five tools, all of them toolbar
      shapes; freehand and text are toolbar shapes it leaves out. */
  lemma MergedShapesAreToolbarShapes(toolType: string)
    ensures MergedShapesSelected(toolType) <==>
            toolType == "rectangle" || toolType == "diamond" || toolType == "ellipse" ||
            toolType == "arrow" || toolType == "line"
    ensures MergedShapesSelected(toolType) ==> toolType in ToolbarShapes
    ensures !MergedShapesSelected("freedraw") && !MergedShapesSelected("text")
  {
  }

  // ---- shortcut label ----

  /** A shortcut key as the label code sees it: a string or an array of strings. */
  datatype KeyValue = Text(s: string) | List(items: seq<string>)

  /** `capitalizeString`: upper-cases the first character (ASCII letters only). */
  function Capitalize(s: string): (r: string)
    ensures |r| == |s| && (|s| > 0 ==> r[1..] == s[1..])
    ensures |s| > 0 && 'a' <= s[0] <= 'z' ==> r[0] == (s[0] as int - 32) as char && 'A' <= r[0] <= 'Z'
    ensures |s| > 0 && !('a' <= s[0] <= 'z') ==> r == s
  {
    if |s| > 0 && 'a' <= s[0] <= 'z' then [(s[0] as int - 32) as char] + s[1..] else s
  }

  /** The numeric part: an array contributes its first item (`"undefined"`
      when it is empty), a truthy string itself, anything else nothing. */
  function NumericPart(numericKey: Option<KeyValue>): (r: string)
    ensures numericKey.None? ==> r == ""
    ensures numericKey.Some? && numericKey.value.Text? ==> r == numericKey.value.s
  {
    match numericKey
    case None => ""
    case Some(Text(s)) => s
    case Some(List(items)) => if |items| > 0 then items[0] else "undefined"
  }

  /** The letter part: the capitalised key, or its first item for an array;
      None where the source throws, since capitalising `key[0]` of an empty
      array calls a method on `undefined`. */
  function LetterPart(key: Option<KeyValue>): (r: Option<string>)
    ensures r.None? <==> key == Some(List([]))
  {
    match key
    case None => Some("")
    case Some(Text(s)) => Some(Capitalize(s))
    case Some(List(items)) => if |items| > 0 then Some(Capitalize(items[0])) else None
  }

  /** The shortcut label of a toolbar button: `"<Letter> <or> <n>"` when the
      capitalised letter key is truthy, otherwise the numeric part alone. */
  function ShortcutLabel(key: Option<KeyValue>, numericKey: Option<KeyValue>, orWord: string): (r: Option<string>)
    ensures r.None? <==> key == Some(List([]))
    ensures r.Some? ==>
              var n := NumericPart(numericKey);
              |n| <= |r.value| && r.value[|r.value| - |n|..] == n
    ensures r.Some? && Truthy(LetterPart(key).value) ==>
              var prefix := LetterPart(key).value + " " + orWord + " ";
              && |r.value| == |prefix| + |NumericPart(numericKey)|
              && r.value[..|prefix|] == prefix
    ensures r.Some? && !Truthy(LetterPart(key).value) ==> r.value == NumericPart(numericKey)
  {
    var letter := LetterPart(key);
    if letter.None? then None
    else if Truthy(letter.value) then Some(letter.value + " " + orWord + " " + NumericPart(numericKey))
    else Some(NumericPart(numericKey))
  }

  /** A lower-case letter key gives `"<Upper> <or> <n>"`; no letter key gives the numeric part alone. */
  lemma ShortcutLabelShape(c: char, numericKey: Option<KeyValue>, orWord: string)
    requires 'a' <= c <= 'z'
    ensures ShortcutLabel(Some(Text([c])), numericKey, orWord)
            == Some([(c as int - 32) as char] + " " + orWord + " " + NumericPart(numericKey))
    ensures ShortcutLabel(None, numericKey, orWord) == Some(NumericPart(numericKey))
    ensures ShortcutLabel(Some(Text("")), numericKey, orWord) == Some(NumericPart(numericKey))
  {
    assert Capitalize([c]) == [(c as int - 32) as char];
  }

  /** An array numeric key labels like its first item. */
  lemma ShortcutLabelFirstNumeric(key: Option<KeyValue>, n: string, more: seq<string>, orWord: string)
    requires ShortcutLabel(key, None, orWord).Some?
    ensures var withList := ShortcutLabel(key, Some(List([n] + more)), orWord);
            var withText := ShortcutLabel(key, Some(Text(n)), orWord);
            withList.Some? && withList == withText
  {
  }

  /** The numeric forms that read alike: an empty string labels like no
      numeric key, and an empty array, being truthy, puts the text
      `"undefined"` into the label. */
  lemma ShortcutLabelNumericForms(key: Option<KeyValue>, orWord: string)
    ensures ShortcutLabel(key, Some(Text("")), orWord) == ShortcutLabel(key, None, orWord)
    ensures ShortcutLabel(key, Some(List([])), orWord) == ShortcutLabel(key, Some(Text("undefined")), orWord)
    ensures ShortcutLabel(None, Some(List([])), orWord) == Some("undefined")
  {
  }
}

=== FILE: base64.dfy ===
/** Base64 as used for the `iv` and `ciphertext` columns of a stored scene.
    Encoding is `btoa` over the one-char-per-byte string of the raw bytes,
    which is the base64 encoding of section 4 of RFC 4648 with `=` padding.
    Decoding is `atob`, the forgiving-base64 decoder of the WHATWG Infra
    standard: ASCII whitespace is ignored, one or two trailing `=` are
    optional, and leftover bits of a final partial group are discarded. */
module Base64 {
  import opened Outcomes

  type Byte = b: int | 0 <= b < 256

  /** A 6-bit group: one base64 character's worth of data. */
  type Sextet = v: int | 0 <= v < 64

  /** The value a base64 alphabet character stands for, or None for a
      character outside the alphabet (padding `=` included). */
  function LetterValue(c: char): Option<Sextet> {
    if 'A' <= c <= 'Z' then Some(c as int - 'A' as int)
    else if 'a' <= c <= 'z' then Some(c as int - 'a' as int + 26)
    else if '0' <= c <= '9' then Some(c as int - '0' as int + 52)
    else if c == '+' then Some(62)
    else if c == '/' then Some(63)
    else None
  }

  /** The alphabet of RFC 4648, section 4, Table 1. */
  function Letter(v: Sextet): (c: char)
    ensures LetterValue(c) == Some(v)
    ensures c != '='
  {
    if v < 26 then (v + 'A' as int) as char
    else if v < 52 then (v - 26 + 'a' as int) as char
    else if v < 62 then (v - 52 + '0' as int) as char
    else if v == 62 then '+'
    else '/'
  }

  /** One 24-bit input group split into four sextets (section 4 of RFC 4648). */
  function SplitGroup(b0: Byte, b1: Byte, b2: Byte): (g: seq<Sextet>)
    ensures |g| == 4
  {
    [b0 / 4, (b0 % 4) * 16 + b1 / 16, (b1 % 16) * 4 + b2 / 64, b2 % 64]
  }

  /** Four sextets joined back into three bytes. */
  function JoinGroup(v0: Sextet, v1: Sextet, v2: Sextet, v3: Sextet): (g: seq<Byte>)
    ensures |g| == 3
  {
    [v0 as int * 4 + v1 / 16, (v1 % 16) as int * 16 + v2 / 4, (v2 % 4) as int * 64 + v3]
  }

  /** The 6-bit groups of `bytes`, most significant bits first; a final
      group of one or two bytes is completed with zero bits. */
  function Sextets(bytes: seq<Byte>): (vs: seq<Sextet>)
    ensures |vs| % 4 != 1
    ensures |bytes| % 3 == 0 ==> |vs| % 4 == 0
    ensures |bytes| % 3 == 1 ==> |vs| % 4 == 2
    ensures |bytes| % 3 == 2 ==> |vs| % 4 == 3
    decreases |bytes|
  {
    if |bytes| == 0 then []
    else if |bytes| == 1 then SplitGroup(bytes[0], 0, 0)[..2]
    else if |bytes| == 2 then SplitGroup(bytes[0], bytes[1], 0)[..3]
    else SplitGroup(bytes[0], bytes[1], bytes[2]) + Sextets(bytes[3..])
  }

  function Letters(vs: seq<Sextet>): (s: string)
    ensures |s| == |vs|
    ensures forall i :: 0 <= i < |s| ==> s[i] == Letter(vs[i])
  {
    seq(|vs|, i requires 0 <= i < |vs| => Letter(vs[i]))
  }

  /** The `=` characters that complete the last quantum. */
  function Padding(bytes: seq<Byte>): string {
    if |bytes| % 3 == 1 then "==" else if |bytes| % 3 == 2 then "=" else ""
  }

  /** `btoa(String.fromCharCode(...bytes))`. */
  function Encode(bytes: seq<Byte>): (s: string)
    ensures |s| % 4 == 0
    ensures forall i :: 0 <= i < |s| ==> s[i] == '=' || LetterValue(s[i]).Some?
  {
    Letters(Sextets(bytes)) + Padding(bytes)
  }

  predicate IsAsciiWhitespace(c: char) {
    c == '\t' || c == '\n' || c == '\U{000C}' || c == '\r' || c == ' '
  }

  function StripWhitespace(s: string): (r: string)
    ensures |r| <= |s|
    ensures forall i :: 0 <= i < |r| ==> !IsAsciiWhitespace(r[i])
  {
    if |s| == 0 then []
    else (if IsAsciiWhitespace(s[0]) then [] else [s[0]]) + StripWhitespace(s[1..])
  }

  /** Removes one or two trailing `=` from a string whose length is a
      multiple of four, as the forgiving decoder does. */
  function StripPadding(s: string): string {
    if |s| % 4 == 0 && |s| >= 2 && s[|s| - 1] == '=' && s[|s| - 2] == '=' then s[..|s| - 2]
    else if |s| % 4 == 0 && |s| >= 1 && s[|s| - 1] == '=' then s[..|s| - 1]
    else s
  }

  /** The sextets a string of alphabet characters stands for, or None when
      some character is outside the alphabet. */
  function Values(s: string): (r: Option<seq<Sextet>>)
    ensures r.Some? ==> |r.value| == |s|
    ensures r.Some? ==> forall i :: 0 <= i < |s| ==> LetterValue(s[i]) == Some(r.value[i])
    ensures r.None? ==> exists i :: 0 <= i < |s| && LetterValue(s[i]).None?
  {
    if |s| == 0 then Some([])
    else match (LetterValue(s[0]), Values(s[1..]))
      case (Some(v), Some(rest)) => Some([v] + rest)
      case (None, _) => None
      case (_, None) => None
  }

  /** Regroups sextets into bytes; the bits of an incomplete last byte are dropped. */
  function Octets(vs: seq<Sextet>): (bytes: seq<Byte>)
    requires |vs| % 4 != 1
    ensures |bytes| == |vs| * 3 / 4
    decreases |vs|
  {
    if |vs| == 0 then []
    else if |vs| == 2 then JoinGroup(vs[0], vs[1], 0, 0)[..1]
    else if |vs| == 3 then JoinGroup(vs[0], vs[1], vs[2], 0)[..2]
    else JoinGroup(vs[0], vs[1], vs[2], vs[3]) + Octets(vs[4..])
  }

  /** `atob(s)` read back as bytes (`charCodeAt(0)` of each char); None
      where `atob` throws. */
  function Decode(s: string): (r: Option<seq<Byte>>)
    ensures var data := StripPadding(StripWhitespace(s));
            r.None? <==> |data| % 4 == 1 || exists i :: 0 <= i < |data| && LetterValue(data[i]).None?
    ensures r.Some? ==> |r.value| == |StripPadding(StripWhitespace(s))| * 3 / 4
  {
    var data := StripPadding(StripWhitespace(s));
    if |data| % 4 == 1 then None
    else match Values(data)
      case None => None
      case Some(vs) => Some(Octets(vs))
  }

  lemma GroupRoundTrip(b0: Byte, b1: Byte, b2: Byte)
    ensures var g := SplitGroup(b0, b1, b2); JoinGroup(g[0], g[1], g[2], g[3]) == [b0, b1, b2]
  {
    var v1 := (b0 % 4) * 16 + b1 / 16;
    var v2 := (b1 % 16) * 4 + b2 / 64;
    assert v1 / 16 == b0 % 4 && v1 % 16 == b1 / 16;
    assert v2 / 4 == b1 % 16 && v2 % 4 == b2 / 64;
  }

  /** Regrouping the sextets of `bytes` gives back `bytes`. */
  lemma {:induction false} OctetsOfSextets(bytes: seq<Byte>)
    ensures Octets(Sextets(bytes)) == bytes
    decreases |bytes|
  {
    if |bytes| == 0 {
    } else if |bytes| == 1 {
      GroupRoundTrip(bytes[0], 0, 0);
    } else if |bytes| == 2 {
      GroupRoundTrip(bytes[0], bytes[1], 0);
    } else {
      GroupRoundTrip(bytes[0], bytes[1], bytes[2]);
      var g := SplitGroup(bytes[0], bytes[1], bytes[2]);
      var vs := Sextets(bytes);
      assert vs == g + Sextets(bytes[3..]);
      assert vs[..4] == g;
      assert vs[4..] == Sextets(bytes[3..]);
      OctetsOfSextets(bytes[3..]);
      assert bytes == bytes[..3] + bytes[3..];
    }
  }

  lemma {:induction false} ValuesOfLetters(vs: seq<Sextet>)
    ensures Values(Letters(vs)) == Some(vs)
    decreases |vs|
  {
    if |vs| > 0 {
      var s := Letters(vs);
      assert s[1..] == Letters(vs[1..]);
      ValuesOfLetters(vs[1..]);
      assert vs == [vs[0]] + vs[1..];
    }
  }

  lemma AlphabetIsNotWhitespace(c: char)
    requires c == '=' || LetterValue(c).Some?
    ensures !IsAsciiWhitespace(c)
  {
  }

  lemma {:induction false} StripWhitespaceIdentity(s: string)
    requires forall i :: 0 <= i < |s| ==> !IsAsciiWhitespace(s[i])
    ensures StripWhitespace(s) == s
    decreases |s|
  {
    if |s| > 0 {
      StripWhitespaceIdentity(s[1..]);
    }
  }

  lemma EncodeHasNoWhitespace(bytes: seq<Byte>)
    ensures StripWhitespace(Encode(bytes)) == Encode(bytes)
  {
    var s := Encode(bytes);
    forall i | 0 <= i < |s|
      ensures !IsAsciiWhitespace(s[i])
    {
      AlphabetIsNotWhitespace(s[i]);
    }
    StripWhitespaceIdentity(s);
  }

  lemma PaddingIsStripped(bytes: seq<Byte>)
    ensures StripPadding(Encode(bytes)) == Letters(Sextets(bytes))
  {
    var letters := Letters(Sextets(bytes));
    var s := Encode(bytes);
    assert s == letters + Padding(bytes);
    if |bytes| % 3 == 1 {
      assert |letters| % 4 == 2 && |s| == |letters| + 2;
      assert s[|s| - 1] == '=' && s[|s| - 2] == '=';
      assert s[..|s| - 2] == letters;
    } else if |bytes| % 3 == 2 {
      assert |letters| % 4 == 3 && |s| == |letters| + 1;
      assert s[|s| - 1] == '=';
      assert s[|s| - 2] == letters[|letters| - 1] != '=';
      assert s[..|s| - 1] == letters;
    } else {
      assert s == letters;
      if |s| > 0 {
        assert s[|s| - 1] == Letter(Sextets(bytes)[|s| - 1]) != '=';
      }
    }
  }

  /** The `atob` in `decryptElements` recovers exactly the bytes the `btoa`
      in `createSupabaseSceneDocument` encoded. */
  lemma RoundTrip(bytes: seq<Byte>)
    ensures Decode(Encode(bytes)) == Some(bytes)
  {
    EncodeHasNoWhitespace(bytes);
    PaddingIsStripped(bytes);
    ValuesOfLetters(Sextets(bytes));
    OctetsOfSextets(bytes);
  }
}

=== FILE: dropdown.dfy ===
/** The element factories local to the flowchart generators of
    packages/excalidraw/components/FlowchartDropdown.tsx: `createElement`,
    `createText` and `createArrow` inside `generateFlowchart`, and
    `createElementLocal`, `createTextLocal` and `createArrowLocal` inside
    `generateFlowchart3`. The text and arrow factories of the two sets are
    identical and are modelled once. */
module DropdownHelpers {
  import opened Outcomes
  import opened Elements
  import Templates
  import Flowchart

  /** The shape factory of `generateFlowchart`: tan fill, width-2 stroke,
      `{type: 3}` corners for rectangles only, then `...extra`. */
  function CreateShape(kind: string, x: real, y: real, width: real, height: real, extra: Extra, r: Entropy)
    : (e: Element)
    ensures Fresh(e)
    ensures e.elementType == extra.elementType.GetOr(kind)
    ensures e.x == x && e.y == y && e.width == width && e.height == height
    ensures e.backgroundColor == extra.backgroundColor.GetOr(Tan)
    ensures e.strokeColor == extra.strokeColor.GetOr(Black)
    ensures e.strokeWidth == extra.strokeWidth.GetOr(2)
    ensures extra.roundness.None? ==> (e.roundness == Some(3) <==> kind == "rectangle")
    ensures extra.roundness.None? ==> (e.roundness.None? <==> kind != "rectangle")
  {
    var base := Element(
      kind, x, y, width, height, 0.0, Black, Tan, "solid", 2, "solid", 0, 100,
      if kind == "rectangle" then Some(3) else None,
      r.seed, 1, r.versionNonce, false, r.updated, false, Templates.StampedId("element", r), [], None, None);
    Spread(base, extra)
  }

  /** `createElementLocal`: the background is first `extra.backgroundColor ||
      "#d4a574"`, and the trailing `...extra` then writes
      `extra.backgroundColor` over it whenever the field is present. */
  function CreateElementLocal(kind: string, x: real, y: real, width: real, height: real, extra: Extra, r: Entropy)
    : (e: Element)
    ensures Fresh(e)
    ensures e.x == x && e.y == y && e.width == width && e.height == height
    ensures e.backgroundColor == extra.backgroundColor.GetOr(Tan)
    ensures extra.roundness.None? ==> (e.roundness == Some(3) <==> kind == "rectangle")
  {
    var base := Element(
      kind, x, y, width, height, 0.0, Black, OptOrElse(extra.backgroundColor, Tan), "solid", 2, "solid", 0, 100,
      if kind == "rectangle" then Some(3) else None,
      r.seed, 1, r.versionNonce, false, r.updated, false, Templates.StampedId("element", r), [], None, None);
    Spread(base, extra)
  }

  /** The `||` fallback in `createElementLocal` never decides anything: the
      factory builds exactly what the `generateFlowchart` one builds, so a
      present but empty background colour stays empty. */
  lemma LocalFallbackIsOverwritten(kind: string, x: real, y: real, width: real, height: real, extra: Extra, r: Entropy)
    ensures CreateElementLocal(kind, x, y, width, height, extra, r) == CreateShape(kind, x, y, width, height, extra, r)
    ensures extra.backgroundColor == Some("") ==>
              CreateElementLocal(kind, x, y, width, height, extra, r).backgroundColor == ""
  {
  }

  /** `createText` / `createTextLocal`: a 16-pixel centred label whose
      baseline is the box height. */
  function CreateText(text: string, x: real, y: real, width: real, height: real, r: Entropy): (e: Element)
    ensures Fresh(e)
    ensures e.elementType == "text" && e.x == x && e.y == y && e.width == width && e.height == height
    ensures e.backgroundColor == "transparent" && e.roundness.None?
    ensures e.text.Some? && e.text.value.text == text && e.text.value.originalText == text
    ensures e.text.Some? && e.text.value.fontSize == 16 && e.text.value.baseline == height
  {
    Element(
      "text", x, y, width, height, 0.0, Black, "transparent", "solid", 2, "solid", 0, 100, None,
      r.seed, 1, r.versionNonce, false, r.updated, false, Templates.StampedId("text", r), [], None,
      Some(TextProps(text, 16, 1, "center", "middle", height, text, 1.25)))
  }

  function Abs(a: real): real {
    if a >= 0.0 then a else -a
  }

  /** `createArrow` / `createArrowLocal`: the points are kept as given and
      the extent is the distance from the first point to the last on each
      axis. The source reads the last point unguarded; every call site
      passes at least two points. */
  function CreateArrow(x: real, y: real, points: seq<Point>, r: Entropy): (e: Element)
    requires |points| > 0
    ensures Fresh(e)
    ensures e.elementType == "arrow" && e.x == x && e.y == y && e.points == points
    ensures e.width >= 0.0 && e.height >= 0.0
    ensures e.width == points[|points| - 1].x - points[0].x || e.width == points[0].x - points[|points| - 1].x
    ensures e.height == points[|points| - 1].y - points[0].y || e.height == points[0].y - points[|points| - 1].y
    ensures e.endArrowhead == Some("arrow") && e.roundness == Some(2)
  {
    var first, last := points[0], points[|points| - 1];
    Element(
      "arrow", x, y, Abs(last.x - first.x), Abs(last.y - first.y), 0.0, Black, "transparent", "solid", 2,
      "solid", 0, 100, Some(2), r.seed, 1, r.versionNonce, false, r.updated, false,
      Templates.StampedId("arrow", r), points, Some("arrow"), None)
  }

  /** The extent never exceeds the bounding box of the points, and for a
      straight two-point arrow it is the bounding box. */
  lemma ArrowExtentWithinBoundingBox(x: real, y: real, points: seq<Point>, r: Entropy)
    requires |points| > 0
    ensures var e := CreateArrow(x, y, points, r);
            && e.width <= Flowchart.Greatest(Flowchart.Xs(points)) - Flowchart.Least(Flowchart.Xs(points))
            && e.height <= Flowchart.Greatest(Flowchart.Ys(points)) - Flowchart.Least(Flowchart.Ys(points))
            && (|points| == 2 ==>
                  && e.width == Flowchart.Greatest(Flowchart.Xs(points)) - Flowchart.Least(Flowchart.Xs(points))
                  && e.height == Flowchart.Greatest(Flowchart.Ys(points)) - Flowchart.Least(Flowchart.Ys(points)))
  {
    var xs, ys := Flowchart.Xs(points), Flowchart.Ys(points);
    var n := |points| - 1;
    assert xs[0] == points[0].x && xs[n] == points[n].x;
    assert ys[0] == points[0].y && ys[n] == points[n].y;
    if |points| == 2 {
      var i :| 0 <= i < 2 && xs[i] == Flowchart.Least(xs);
      var j :| 0 <= j < 2 && xs[j] == Flowchart.Greatest(xs);
      var k :| 0 <= k < 2 && ys[k] == Flowchart.Least(ys);
      var l :| 0 <= l < 2 && ys[l] == Flowchart.Greatest(ys);
    }
  }

  /** The middle points of an elbow arrow do not enter its extent. */
  lemma ArrowExtentIgnoresMiddle(x: real, y: real, p: Point, middle: seq<Point>, q: Point, r: Entropy)
    ensures var e1 := CreateArrow(x, y, [p] + middle + [q], r);
            var e2 := CreateArrow(x, y, [p, q], r);
            e1.width == e2.width && e1.height == e2.height
  {
    var pts := [p] + middle + [q];
    assert pts[0] == p && pts[|pts| - 1] == q;
  }
}

=== FILE: elements.dfy ===
/** The drawable element record that the toolbar helpers build and the scene
    store persists, and the `{ ...defaults, ...extra }` override rule every
    element factory in the components uses. Fields that every factory sets
    to the same empty value (`groupIds: []`, `frameId`, `boundElements`,
    `link`, the arrow bindings) are not represented. */
module Elements {
  import opened Outcomes

  datatype Point = Point(x: real, y: real)

  /** The colours the factories default to: black strokes, the tan shape
      fill of the flowchart builders, and no fill. */
  const Black := "#000000"
  const Tan := "#d4a574"
  const Transparent := "transparent"

  /** Element identities. `Uid` is `${prefix}-${clock}-${count}` from the
      counter of flowchartUtils.tsx; `Stamped` is
      `${prefix}-${Date.now()}-${Math.random()}` from the template factories;
      `Given` is an id an element already carries. Ids are compared as model
      values, not as the strings they print to: `Given("x-1-2")` and
      `Uid("x", 1, 2)` differ here although both stand for the string
      "x-1-2", so distinctness of generated ids follows from their fields. */
  datatype ElementId =
    | Uid(prefix: string, clock: int, count: nat)
    | Stamped(prefix: string, clock: int, token: int)
    | Given(name: string)

  /** The random numbers and clock readings one factory call consumes. */
  datatype Entropy = Entropy(seed: int, versionNonce: int, updated: int, clock: int, token: int)

  datatype TextProps = TextProps(
    text: string,
    fontSize: int,
    fontFamily: int,
    textAlign: string,
    verticalAlign: string,
    baseline: real,
    originalText: string,
    lineHeight: real)

  datatype Element = Element(
    elementType: string,
    x: real,
    y: real,
    width: real,
    height: real,
    angle: real,
    strokeColor: string,
    backgroundColor: string,
    fillStyle: string,
    strokeWidth: int,
    strokeStyle: string,
    roughness: int,
    opacity: int,
    roundness: Option<int>,   // `{ type: n }` as Some(n), `null` as None
    seed: int,
    version: int,
    versionNonce: int,
    isDeleted: bool,
    updated: int,
    locked: bool,
    id: ElementId,
    points: seq<Point>,
    endArrowhead: Option<string>,
    text: Option<TextProps>)

  /** The fields an `extra` object may carry; an absent field keeps the default.
      `roundness: Some(None)` is an explicit `roundness: null`. */
  datatype Extra = Extra(
    elementType: Option<string>,
    strokeColor: Option<string>,
    backgroundColor: Option<string>,
    strokeWidth: Option<int>,
    roundness: Option<Option<int>>,
    points: Option<seq<Point>>,
    endArrowhead: Option<string>,
    id: Option<ElementId>,
    text: Option<TextProps>)

  const NoExtra := Extra(None, None, None, None, None, None, None, None, None)

  /** `{ ...base, ...extra }`: every field `extra` carries replaces the base value. */
  function Spread(base: Element, extra: Extra): Element {
    base.(
      elementType := extra.elementType.GetOr(base.elementType),
      strokeColor := extra.strokeColor.GetOr(base.strokeColor),
      backgroundColor := extra.backgroundColor.GetOr(base.backgroundColor),
      strokeWidth := extra.strokeWidth.GetOr(base.strokeWidth),
      roundness := extra.roundness.GetOr(base.roundness),
      points := extra.points.GetOr(base.points),
      endArrowhead := if extra.endArrowhead.Some? then extra.endArrowhead else base.endArrowhead,
      id := extra.id.GetOr(base.id),
      text := if extra.text.Some? then extra.text else base.text)
  }

  /** The fields every factory writes the same way: a fresh, live element at
      version 1 with no rotation, full opacity, solid fill and stroke, and no lock. */
  predicate Fresh(e: Element) {
    && e.version == 1
    && !e.isDeleted
    && e.angle == 0.0
    && e.opacity == 100
    && e.fillStyle == "solid"
    && e.strokeStyle == "solid"
    && e.roughness == 0
    && !e.locked
  }

  /** Spreading `extra` never touches the fields `Fresh` speaks about. */
  lemma SpreadKeepsFresh(base: Element, extra: Extra)
    requires Fresh(base)
    ensures Fresh(Spread(base, extra))
  {
  }
}

=== FILE: file_sync.dfy ===
/** Batch upload and download of binary files to the `excalidraw-files`
    bucket (excalidraw-app/data/supabase.ts). The per-file requests of the
    source run concurrently under `Promise.all`; here they are folded in
    input order, and the result lists are compared as multisets or sets,
    since the source pushes to them in completion order. */
module FileSync {
  import opened Outcomes
  import Base64

  type Byte = Base64.Byte
  type FileId = string

  /** Object storage: object key to stored bytes. */
  type Bucket = map<string, seq<Byte>>

  datatype FileUpload = FileUpload(id: FileId, buffer: seq<Byte>)

  /** `${prefix}/${id}`. */
  function ObjectKey(prefix: string, id: FileId): string {
    prefix + "/" + id
  }

  function Ids(files: seq<FileUpload>): (ids: seq<FileId>)
    ensures |ids| == |files|
    ensures forall i :: 0 <= i < |files| ==> ids[i] == files[i].id
  {
    seq(|files|, i requires 0 <= i < |files| => files[i].id)
  }

  // ---- upload ----

  /** The outcome of uploading one file with `upsert: true`: `rejects(key,
      buffer)` is whether the request fails, by an error reply or a throw. */
  predicate Uploads(prefix: string, file: FileUpload, rejects: (string, seq<Byte>) -> bool) {
    !rejects(ObjectKey(prefix, file.id), file.buffer)
  }

  /** Some file among the first `n` has id `id` and upload outcome `ok`. */
  predicate SomeUpload(prefix: string, files: seq<FileUpload>, n: nat, id: FileId, ok: bool,
                       rejects: (string, seq<Byte>) -> bool)
    requires n <= |files|
  {
    exists i :: 0 <= i < n && files[i].id == id && Uploads(prefix, files[i], rejects) == ok
  }

  datatype UploadBatch = UploadBatch(savedFiles: seq<FileId>, erroredFiles: seq<FileId>, bucket: Bucket)

  /** `saveFilesToSupabase`: every file is uploaded on its own, and a
      successful upload overwrites whatever object had that key; the id goes
      to `savedFiles` or to `erroredFiles`. The batch is folded from the
      front; the result lists are read as multisets. */
  function SaveFilesToSupabase(prefix: string, files: seq<FileUpload>, bucket: Bucket,
                               rejects: (string, seq<Byte>) -> bool): (r: UploadBatch)
    ensures multiset(r.savedFiles) + multiset(r.erroredFiles) == multiset(Ids(files))
    ensures bucket.Keys <= r.bucket.Keys
    decreases |files|
  {
    if |files| == 0 then UploadBatch([], [], bucket)
    else
      var done := SaveFilesToSupabase(prefix, files[..|files| - 1], bucket, rejects);
      var file := files[|files| - 1];
      assert Ids(files) == Ids(files[..|files| - 1]) + [file.id];
      if Uploads(prefix, file, rejects) then
        UploadBatch(done.savedFiles + [file.id], done.erroredFiles,
                    done.bucket[ObjectKey(prefix, file.id) := file.buffer])
      else
        UploadBatch(done.savedFiles, done.erroredFiles + [file.id], done.bucket)
  }

  /** One step of the fold: the last file's id is appended to one list, and
      only an accepted upload writes the bucket. */
  lemma UploadStep(prefix: string, files: seq<FileUpload>, bucket: Bucket, rejects: (string, seq<Byte>) -> bool)
    requires |files| > 0
    ensures var r := SaveFilesToSupabase(prefix, files, bucket, rejects);
            var done := SaveFilesToSupabase(prefix, files[..|files| - 1], bucket, rejects);
            var file := files[|files| - 1];
            if Uploads(prefix, file, rejects) then
              r == UploadBatch(done.savedFiles + [file.id], done.erroredFiles,
                               done.bucket[ObjectKey(prefix, file.id) := file.buffer])
            else
              r == UploadBatch(done.savedFiles, done.erroredFiles + [file.id], done.bucket)
  {
  }

  /** A file whose upload goes through is saved and its object is stored. */
  lemma {:induction false} AcceptedAreSaved(prefix: string, files: seq<FileUpload>, bucket: Bucket,
                                            rejects: (string, seq<Byte>) -> bool)
    ensures var r := SaveFilesToSupabase(prefix, files, bucket, rejects);
            forall i :: 0 <= i < |files| && Uploads(prefix, files[i], rejects) ==>
              files[i].id in r.savedFiles && ObjectKey(prefix, files[i].id) in r.bucket
    decreases |files|
  {
    if |files| > 0 {
      var front := files[..|files| - 1];
      AcceptedAreSaved(prefix, front, bucket, rejects);
      UploadStep(prefix, files, bucket, rejects);
      var done := SaveFilesToSupabase(prefix, front, bucket, rejects);
      var r := SaveFilesToSupabase(prefix, files, bucket, rejects);
      assert forall id :: id in done.savedFiles ==> id in r.savedFiles;
      assert done.bucket.Keys <= r.bucket.Keys;
      forall i | 0 <= i < |front| && Uploads(prefix, files[i], rejects)
        ensures files[i].id in r.savedFiles && ObjectKey(prefix, files[i].id) in r.bucket
      {
        assert files[i] == front[i];
      }
    }
  }

  /** A file whose upload fails or throws is errored. */
  lemma {:induction false} RejectedAreErrored(prefix: string, files: seq<FileUpload>, bucket: Bucket,
                                              rejects: (string, seq<Byte>) -> bool)
    ensures var r := SaveFilesToSupabase(prefix, files, bucket, rejects);
            forall i :: 0 <= i < |files| && !Uploads(prefix, files[i], rejects) ==> files[i].id in r.erroredFiles
    decreases |files|
  {
    if |files| > 0 {
      var front := files[..|files| - 1];
      RejectedAreErrored(prefix, front, bucket, rejects);
      UploadStep(prefix, files, bucket, rejects);
      var done := SaveFilesToSupabase(prefix, front, bucket, rejects);
      var r := SaveFilesToSupabase(prefix, files, bucket, rejects);
      assert forall id :: id in done.erroredFiles ==> id in r.erroredFiles;
      forall i | 0 <= i < |front| && !Uploads(prefix, files[i], rejects)
        ensures files[i].id in r.erroredFiles
      {
        assert files[i] == front[i];
      }
    }
  }

  /** Distinct ids under one prefix give distinct object keys. */
  lemma ObjectKeyInjective(prefix: string, a: FileId, b: FileId)
    requires ObjectKey(prefix, a) == ObjectKey(prefix, b)
    ensures a == b
  {
    assert a == ObjectKey(prefix, a)[|prefix| + 1..];
    assert b == ObjectKey(prefix, b)[|prefix| + 1..];
  }

  /** File `i` is accepted and no later accepted file shares its id, so its
      upload is the last to write its key. */
  predicate LastAccepted(prefix: string, files: seq<FileUpload>, i: nat, rejects: (string, seq<Byte>) -> bool)
    requires i < |files|
  {
    && Uploads(prefix, files[i], rejects)
    && forall j :: i < j < |files| && Uploads(prefix, files[j], rejects) ==> files[j].id != files[i].id
  }

  /** Dropping the last file keeps an earlier file the last accepted one of its id. */
  lemma LastAcceptedInFront(prefix: string, files: seq<FileUpload>, i: nat, rejects: (string, seq<Byte>) -> bool)
    requires i < |files| - 1 && LastAccepted(prefix, files, i, rejects)
    ensures LastAccepted(prefix, files[..|files| - 1], i, rejects)
  {
    var front := files[..|files| - 1];
    forall j | i < j < |front| && Uploads(prefix, front[j], rejects) ensures front[j].id != front[i].id {
      assert front[j] == files[j] && front[i] == files[i];
    }
  }

  /** The last file of a batch does not overwrite an earlier file that is the
      last accepted one of its id. */
  lemma BytesSurviveLastFile(prefix: string, files: seq<FileUpload>, bucket: Bucket,
                             rejects: (string, seq<Byte>) -> bool, i: nat)
    requires i < |files| - 1 && LastAccepted(prefix, files, i, rejects)
    requires var done := SaveFilesToSupabase(prefix, files[..|files| - 1], bucket, rejects);
             ObjectKey(prefix, files[i].id) in done.bucket && done.bucket[ObjectKey(prefix, files[i].id)] == files[i].buffer
    ensures var r := SaveFilesToSupabase(prefix, files, bucket, rejects);
            ObjectKey(prefix, files[i].id) in r.bucket && r.bucket[ObjectKey(prefix, files[i].id)] == files[i].buffer
  {
    UploadStep(prefix, files, bucket, rejects);
    var file := files[|files| - 1];
    if Uploads(prefix, file, rejects) && ObjectKey(prefix, file.id) == ObjectKey(prefix, files[i].id) {
      ObjectKeyInjective(prefix, file.id, files[i].id);
      assert false;
    }
  }

  /** The object an accepted upload leaves holds that file's bytes, unless a
      later accepted file of the same id overwrites it (`upsert: true`). */
  lemma {:induction false} AcceptedBytesStored(prefix: string, files: seq<FileUpload>, bucket: Bucket,
                                               rejects: (string, seq<Byte>) -> bool)
    ensures var r := SaveFilesToSupabase(prefix, files, bucket, rejects);
            forall i :: 0 <= i < |files| && LastAccepted(prefix, files, i, rejects) ==>
              ObjectKey(prefix, files[i].id) in r.bucket && r.bucket[ObjectKey(prefix, files[i].id)] == files[i].buffer
    decreases |files|
  {
    if |files| > 0 {
      var front := files[..|files| - 1];
      AcceptedBytesStored(prefix, front, bucket, rejects);
      UploadStep(prefix, files, bucket, rejects);
      forall i | 0 <= i < |files| - 1 && LastAccepted(prefix, files, i, rejects)
        ensures var r := SaveFilesToSupabase(prefix, files, bucket, rejects);
                ObjectKey(prefix, files[i].id) in r.bucket && r.bucket[ObjectKey(prefix, files[i].id)] == files[i].buffer
      {
        LastAcceptedInFront(prefix, files, i, rejects);
        assert front[i] == files[i];
        BytesSurviveLastFile(prefix, files, bucket, rejects, i);
      }
    }
  }

  /** A file whose upload goes through is saved and its object is stored;
      one whose upload fails is errored. */
  lemma {:induction false} UploadEachFile(prefix: string, files: seq<FileUpload>, bucket: Bucket,
                                          rejects: (string, seq<Byte>) -> bool)
    ensures var r := SaveFilesToSupabase(prefix, files, bucket, rejects);
            && (forall i :: 0 <= i < |files| && Uploads(prefix, files[i], rejects) ==>
                  files[i].id in r.savedFiles && ObjectKey(prefix, files[i].id) in r.bucket)
            && (forall i :: 0 <= i < |files| && !Uploads(prefix, files[i], rejects) ==>
                  files[i].id in r.erroredFiles)
            && (forall i :: 0 <= i < |files| && LastAccepted(prefix, files, i, rejects) ==>
                  r.bucket[ObjectKey(prefix, files[i].id)] == files[i].buffer)
  {
    AcceptedAreSaved(prefix, files, bucket, rejects);
    RejectedAreErrored(prefix, files, bucket, rejects);
    AcceptedBytesStored(prefix, files, bucket, rejects);
  }

  /** Every listed id comes from a file of the batch with that outcome. */
  lemma {:induction false} UploadWitnesses(prefix: string, files: seq<FileUpload>, bucket: Bucket,
                                           rejects: (string, seq<Byte>) -> bool)
    ensures var r := SaveFilesToSupabase(prefix, files, bucket, rejects);
            && (forall id :: id in r.savedFiles ==> SomeUpload(prefix, files, |files|, id, true, rejects))
            && (forall id :: id in r.erroredFiles ==> SomeUpload(prefix, files, |files|, id, false, rejects))
    decreases |files|
  {
    if |files| > 0 {
      var front := files[..|files| - 1];
      UploadWitnesses(prefix, front, bucket, rejects);
      UploadStep(prefix, files, bucket, rejects);
      forall id, ok | SomeUpload(prefix, front, |front|, id, ok, rejects)
        ensures SomeUpload(prefix, files, |files|, id, ok, rejects)
      {
        var i :| 0 <= i < |front| && front[i].id == id && Uploads(prefix, front[i], rejects) == ok;
        assert files[i] == front[i];
      }
      assert SomeUpload(prefix, files, |files|, files[|files| - 1].id,
                        Uploads(prefix, files[|files| - 1], rejects), rejects);
    }
  }

  /** Each file's id is saved exactly when its own upload goes through, and
      errored exactly when it does not: one failure never moves another file. */
  lemma {:induction false} UploadOutcomes(prefix: string, files: seq<FileUpload>, bucket: Bucket,
                                          rejects: (string, seq<Byte>) -> bool)
    ensures var r := SaveFilesToSupabase(prefix, files, bucket, rejects);
            && (forall i :: 0 <= i < |files| && Uploads(prefix, files[i], rejects) ==>
                  files[i].id in r.savedFiles && ObjectKey(prefix, files[i].id) in r.bucket)
            && (forall i :: 0 <= i < |files| && !Uploads(prefix, files[i], rejects) ==>
                  files[i].id in r.erroredFiles)
            && (forall id :: id in r.savedFiles ==> SomeUpload(prefix, files, |files|, id, true, rejects))
            && (forall id :: id in r.erroredFiles ==> SomeUpload(prefix, files, |files|, id, false, rejects))
            && (forall i :: 0 <= i < |files| && LastAccepted(prefix, files, i, rejects) ==>
                  r.bucket[ObjectKey(prefix, files[i].id)] == files[i].buffer)
  {
    UploadEachFile(prefix, files, bucket, rejects);
    UploadWitnesses(prefix, files, bucket, rejects);
  }

  /** The batch writes only the keys of its own accepted files: every other
      object keeps its bytes. */
  lemma {:induction false} UploadTouchesOnlyItsKeys(prefix: string, files: seq<FileUpload>, bucket: Bucket,
                                                    rejects: (string, seq<Byte>) -> bool, k: string)
    requires forall i :: 0 <= i < |files| && Uploads(prefix, files[i], rejects) ==> ObjectKey(prefix, files[i].id) != k
    ensures var r := SaveFilesToSupabase(prefix, files, bucket, rejects);
            (k in r.bucket <==> k in bucket) && (k in bucket ==> r.bucket[k] == bucket[k])
    decreases |files|
  {
    if |files| > 0 {
      UploadTouchesOnlyItsKeys(prefix, files[..|files| - 1], bucket, rejects, k);
    }
  }

  /** `p` is a prefix of `s`. */
  predicate IsPrefix(p: seq<FileId>, s: seq<FileId>) {
    |p| <= |s| && s[..|p|] == p
  }

  lemma PrefixTransitive(p: seq<FileId>, q: seq<FileId>, s: seq<FileId>)
    requires IsPrefix(p, q) && IsPrefix(q, s)
    ensures IsPrefix(p, s)
  {
    assert s[..|p|] == s[..|q|][..|p|];
  }

  /** One more file only appends to the result lists. */
  lemma UploadExtends(prefix: string, files: seq<FileUpload>, bucket: Bucket, rejects: (string, seq<Byte>) -> bool)
    requires |files| > 0
    ensures var r := SaveFilesToSupabase(prefix, files, bucket, rejects);
            var done := SaveFilesToSupabase(prefix, files[..|files| - 1], bucket, rejects);
            IsPrefix(done.savedFiles, r.savedFiles) && IsPrefix(done.erroredFiles, r.erroredFiles)
  {
    UploadStep(prefix, files, bucket, rejects);
    var r := SaveFilesToSupabase(prefix, files, bucket, rejects);
    var done := SaveFilesToSupabase(prefix, files[..|files| - 1], bucket, rejects);
    assert r.savedFiles[..|done.savedFiles|] == done.savedFiles;
    assert r.erroredFiles[..|done.erroredFiles|] == done.erroredFiles;
  }

  /** Appending files to a batch leaves the outcomes of the earlier files as they were. */
  lemma {:induction false} UploadIsolation(prefix: string, a: seq<FileUpload>, b: seq<FileUpload>,
                                           bucket: Bucket, rejects: (string, seq<Byte>) -> bool)
    ensures var whole := SaveFilesToSupabase(prefix, a + b, bucket, rejects);
            var first := SaveFilesToSupabase(prefix, a, bucket, rejects);
            IsPrefix(first.savedFiles, whole.savedFiles) && IsPrefix(first.erroredFiles, whole.erroredFiles)
    decreases |b|
  {
    if |b| == 0 {
      assert a + b == a;
    } else {
      var ab := a + b;
      assert ab[..|ab| - 1] == a + b[..|b| - 1];
      UploadIsolation(prefix, a, b[..|b| - 1], bucket, rejects);
      UploadExtends(prefix, ab, bucket, rejects);
      var first := SaveFilesToSupabase(prefix, a, bucket, rejects);
      var mid := SaveFilesToSupabase(prefix, ab[..|ab| - 1], bucket, rejects);
      var whole := SaveFilesToSupabase(prefix, ab, bucket, rejects);
      PrefixTransitive(first.savedFiles, mid.savedFiles, whole.savedFiles);
      PrefixTransitive(first.erroredFiles, mid.erroredFiles, whole.erroredFiles);
    }
  }

  // ---- download ----

  datatype FileMetadata = FileMetadata(mimeType: Option<string>, created: Option<int>)

  /** What `decompressData` yields: the payload and its metadata object. */
  datatype Decompressed = Decompressed(data: seq<Byte>, metadata: Option<FileMetadata>)

  datatype BinaryFileData = BinaryFileData(
    mimeType: string,
    id: FileId,
    dataURL: string,
    created: int,
    lastRetrieved: int)

  /** `MIME_TYPES.binary`. */
  const BinaryMimeType := "application/octet-stream"

  /** The collaborators of a download: `fails(key)` is a transport failure,
      `decompress(bytes, key)` decrypts and inflates (None when it throws),
      `decodeText` is UTF-8 decoding, `now` is `Date.now()`. */
  datatype Downloader = Downloader(
    fails: string -> bool,
    decompress: (seq<Byte>, string) -> Option<Decompressed>,
    decodeText: seq<Byte> -> string,
    now: int)

  /** `[...new Set(ids)]`: the ids in order of first occurrence. */
  function Dedupe(ids: seq<FileId>): (r: seq<FileId>)
    ensures forall i, j :: 0 <= i < j < |r| ==> r[i] != r[j]
    ensures forall id :: id in r <==> id in ids
    ensures |r| <= |ids|
    decreases |ids|
  {
    if |ids| == 0 then []
    else
      var front := Dedupe(ids[..|ids| - 1]);
      if ids[|ids| - 1] in front then front else front + [ids[|ids| - 1]]
  }

  /** Deduplication keeps first occurrences in their original relative order. */
  lemma {:induction false} DedupeKeepsFirstOrder(ids: seq<FileId>, i: nat, j: nat)
    requires i < j < |ids|
    requires forall k :: 0 <= k < i ==> ids[k] != ids[i]
    requires forall k :: 0 <= k < j ==> ids[k] != ids[j]
    ensures exists p, q :: 0 <= p < q < |Dedupe(ids)| && Dedupe(ids)[p] == ids[i] && Dedupe(ids)[q] == ids[j]
    decreases |ids|
  {
    var front := Dedupe(ids[..|ids| - 1]);
    if j == |ids| - 1 {
      assert ids[i] in ids[..|ids| - 1];
      assert ids[j] !in ids[..|ids| - 1];
      var p :| 0 <= p < |front| && front[p] == ids[i];
      assert Dedupe(ids) == front + [ids[j]];
      assert Dedupe(ids)[p] == ids[i] && Dedupe(ids)[|front|] == ids[j];
    } else {
      DedupeKeepsFirstOrder(ids[..|ids| - 1], i, j);
      var p, q :| 0 <= p < q < |front| && front[p] == ids[i] && front[q] == ids[j];
      assert Dedupe(ids)[p] == ids[i] && Dedupe(ids)[q] == ids[j];
    }
  }

  /** The record a download of `id` produces, or None when the id errors:
      missing object, failed request, failed decompression or decryption, or
      a missing metadata object (`metadata.mimeType` throws). */
  function LoadOne(prefix: string, decryptionKey: string, id: FileId, bucket: Bucket, d: Downloader)
    : (r: Option<BinaryFileData>)
    ensures r.Some? ==> r.value.id == id
    // the download succeeds exactly when the object is there, the request
    // goes through, decompression succeeds and the payload carries metadata
    ensures r.Some? <==>
              && ObjectKey(prefix, id) in bucket && !d.fails(ObjectKey(prefix, id))
              && var unpacked := d.decompress(bucket[ObjectKey(prefix, id)], decryptionKey);
                 unpacked.Some? && unpacked.value.metadata.Some?
    // the record: the decoded payload, a truthy MIME type or the binary
    // one, and a non-zero creation time or the clock, read for both stamps
    ensures r.Some? ==>
              && var unpacked := d.decompress(bucket[ObjectKey(prefix, id)], decryptionKey).value;
                 var metadata := unpacked.metadata.value;
                 && r.value.dataURL == d.decodeText(unpacked.data)
                 && r.value.mimeType == OptOrElse(metadata.mimeType, BinaryMimeType)
                 && r.value.created == r.value.lastRetrieved
                 && (metadata.created.Some? && metadata.created.value != 0 ==> r.value.created == metadata.created.value)
                 && (metadata.created.None? || metadata.created.value == 0 ==> r.value.created == d.now)
  {
    var key := ObjectKey(prefix, id);
    if d.fails(key) || key !in bucket then None
    else
      match d.decompress(bucket[key], decryptionKey)
      case None => None
      case Some(Decompressed(data, metadata)) =>
        if metadata.None? then None
        else
          var created := if metadata.value.created.Some? && metadata.value.created.value != 0
                         then metadata.value.created.value else d.now;
          Some(BinaryFileData(
            OptOrElse(metadata.value.mimeType, BinaryMimeType),
            id,
            d.decodeText(data),
            created,
            created))
  }

  datatype DownloadBatch = DownloadBatch(loadedFiles: seq<BinaryFileData>, erroredFiles: set<FileId>)

  /** Downloads the (already distinct) `ids`, folded from the front. */
  function LoadEach(prefix: string, decryptionKey: string, ids: seq<FileId>, bucket: Bucket, d: Downloader)
    : (r: DownloadBatch)
    ensures |r.loadedFiles| <= |ids|
    ensures forall f :: f in r.loadedFiles ==> LoadOne(prefix, decryptionKey, f.id, bucket, d) == Some(f)
    decreases |ids|
  {
    if |ids| == 0 then DownloadBatch([], {})
    else
      var done := LoadEach(prefix, decryptionKey, ids[..|ids| - 1], bucket, d);
      var id := ids[|ids| - 1];
      match LoadOne(prefix, decryptionKey, id, bucket, d)
      case None => DownloadBatch(done.loadedFiles, done.erroredFiles + {id})
      case Some(file) => DownloadBatch(done.loadedFiles + [file], done.erroredFiles)
  }

  /** Every id ends up errored exactly when its own download fails, and
      loaded, with the record `LoadOne` describes, exactly when it succeeds;
      nothing outside `ids` appears. */
  lemma {:induction false} LoadOutcomes(prefix: string, decryptionKey: string, ids: seq<FileId>,
                                        bucket: Bucket, d: Downloader)
    ensures var r := LoadEach(prefix, decryptionKey, ids, bucket, d);
            && (forall id :: id in ids ==> (id in r.erroredFiles <==> LoadOne(prefix, decryptionKey, id, bucket, d).None?))
            && (forall id :: id in ids && LoadOne(prefix, decryptionKey, id, bucket, d).Some? ==>
                  LoadOne(prefix, decryptionKey, id, bucket, d).value in r.loadedFiles)
            && (forall id :: id in r.erroredFiles ==> id in ids)
            && (forall f :: f in r.loadedFiles ==> f.id in ids)
    decreases |ids|
  {
    if |ids| > 0 {
      var front := ids[..|ids| - 1];
      LoadOutcomes(prefix, decryptionKey, front, bucket, d);
      assert ids == front + [ids[|ids| - 1]];
    }
  }

  /** Over distinct ids the loaded records have distinct ids, no id is both
      loaded and errored, and every id is counted once. */
  lemma {:induction false} LoadPartition(prefix: string, decryptionKey: string, ids: seq<FileId>,
                                         bucket: Bucket, d: Downloader)
    requires forall i, j :: 0 <= i < j < |ids| ==> ids[i] != ids[j]
    ensures var r := LoadEach(prefix, decryptionKey, ids, bucket, d);
            && (forall i, j :: 0 <= i < j < |r.loadedFiles| ==> r.loadedFiles[i].id != r.loadedFiles[j].id)
            && (forall f :: f in r.loadedFiles ==> f.id !in r.erroredFiles)
            && |r.loadedFiles| + |r.erroredFiles| == |ids|
    decreases |ids|
  {
    if |ids| > 0 {
      var front := ids[..|ids| - 1];
      var id := ids[|ids| - 1];
      LoadPartition(prefix, decryptionKey, front, bucket, d);
      LoadOutcomes(prefix, decryptionKey, front, bucket, d);
      var done := LoadEach(prefix, decryptionKey, front, bucket, d);
      assert id !in front by {
        forall k | 0 <= k < |front| ensures front[k] != id {
          assert front[k] == ids[k];
        }
      }
      assert id !in done.erroredFiles;
      forall f | f in done.loadedFiles ensures f.id != id { }
    }
  }

  /** `loadFilesFromSupabase`: deduplicates the ids, then downloads each. */
  function LoadFilesFromSupabase(prefix: string, decryptionKey: string, filesIds: seq<FileId>,
                                 bucket: Bucket, d: Downloader): (r: DownloadBatch)
    ensures forall id :: id in filesIds ==> (id in r.erroredFiles <==> LoadOne(prefix, decryptionKey, id, bucket, d).None?)
    ensures forall id :: id in filesIds && LoadOne(prefix, decryptionKey, id, bucket, d).Some? ==>
              LoadOne(prefix, decryptionKey, id, bucket, d).value in r.loadedFiles
    ensures forall id :: id in r.erroredFiles ==> id in filesIds
    ensures forall f :: f in r.loadedFiles ==> f.id in filesIds && LoadOne(prefix, decryptionKey, f.id, bucket, d) == Some(f)
    ensures forall i, j :: 0 <= i < j < |r.loadedFiles| ==> r.loadedFiles[i].id != r.loadedFiles[j].id
    ensures forall f :: f in r.loadedFiles ==> f.id !in r.erroredFiles
    ensures |r.loadedFiles| + |r.erroredFiles| == |Dedupe(filesIds)|
  {
    var distinct := Dedupe(filesIds);
    LoadOutcomes(prefix, decryptionKey, distinct, bucket, d);
    LoadPartition(prefix, decryptionKey, distinct, bucket, d);
    LoadEach(prefix, decryptionKey, distinct, bucket, d)
  }

  /** Missing or falsy metadata fields fall back to the binary MIME type and
      to the current time, both for `created` and for `lastRetrieved`; each
      field falls back on its own. */
  lemma LoadDefaults(prefix: string, decryptionKey: string, id: FileId, bucket: Bucket, d: Downloader,
                     data: seq<Byte>, mimeType: Option<string>, created: Option<int>)
    requires ObjectKey(prefix, id) in bucket && !d.fails(ObjectKey(prefix, id))
    requires d.decompress(bucket[ObjectKey(prefix, id)], decryptionKey)
             == Some(Decompressed(data, Some(FileMetadata(mimeType, created))))
    ensures var r := LoadOne(prefix, decryptionKey, id, bucket, d);
            && r.Some?
            && (mimeType.None? || mimeType == Some("") ==> r.value.mimeType == BinaryMimeType)
            && (created.None? || created == Some(0) ==> r.value.created == d.now && r.value.lastRetrieved == d.now)
            && (mimeType.None? && created.None? ==>
                  r == Some(BinaryFileData(BinaryMimeType, id, d.decodeText(data), d.now, d.now)))
  {
  }
}

=== FILE: flowchart.dfy ===
/** The flowchart builder of packages/excalidraw/components/flowchartUtils.tsx:
    node and edge blueprints become arrows, shapes and text labels, edges
    first so that arrows are drawn beneath the shapes. The border-anchor
    geometry (`rectBorderIntersection`, `diamondBorderIntersection`,
    `perpOffset`) is floating-point work with epsilons and `Math.hypot`, and
    is supplied as a `Geometry` parameter; everything else is modelled over
    `real`. The module-level `_counter` of `uid` is threaded explicitly. */
module Flowchart {
  import opened Outcomes
  import opened Elements

  datatype NodeKind = Rectangle | Ellipse | Diamond | TextNode

  function KindName(k: NodeKind): string {
    match k
    case Rectangle => "rectangle"
    case Ellipse => "ellipse"
    case Diamond => "diamond"
    case TextNode => "text"
  }

  /** `style.roundness` as `{ type: n }` (Some(n)) or nullish (None). */
  datatype NodeStyle = NodeStyle(backgroundColor: Option<string>, strokeColor: Option<string>, roundness: Option<int>)

  datatype NodeBlueprint = NodeBlueprint(
    id: string,
    kind: NodeKind,
    x: real,
    y: real,
    width: real,
    height: real,
    labelText: Option<string>,
    style: Option<NodeStyle>)

  datatype EdgeBlueprint = EdgeBlueprint(
    id: string,
    from: string,
    to: string,
    points: Option<seq<Point>>,
    labelText: Option<string>)

  /** The floating-point helpers: border intersections towards a target
      point, and the perpendicular label offset of a given length. */
  datatype Geometry = Geometry(
    rectBorder: (NodeBlueprint, real, real) -> Point,
    diamondBorder: (NodeBlueprint, real, real) -> Point,
    perpOffset: (Point, Point, real) -> Point)

  /** The environment of one conversion: geometry, and the random numbers
      and clock readings of the factory call whose `uid` takes counter value `n`. */
  datatype Env = Env(geometry: Geometry, entropy: nat -> Entropy)

  /** The elements a step emits and the value of `_counter` after it. */
  datatype Built = Built(elements: seq<Element>, counter: nat)

  /** `Math.max` of two reals. */
  function RMax(a: real, b: real): (m: real)
    ensures m >= a && m >= b && (m == a || m == b)
  {
    if a >= b then a else b
  }

  function RAbs(a: real): real {
    if a >= 0.0 then a else -a
  }

  /** The id `uid(prefix)` returns when the pre-incremented counter is `n`:
      the prefix, the clock reading of that call, and the counter value. */
  function MakeUid(prefix: string, n: nat, env: Env): (id: ElementId)
    ensures id.Uid? && id.prefix == prefix && id.count == n
    ensures id.clock == env.entropy(n).clock
  {
    ElementId.Uid(prefix, env.entropy(n).clock, n)
  }

  /** Two `uid` calls that see different counter values never return the
      same id, whatever their prefixes and clock readings. */
  lemma UidsDistinct(p: string, q: string, n: nat, m: nat, env: Env, env': Env)
    requires n != m
    ensures MakeUid(p, n, env) != MakeUid(q, m, env')
  {
  }

  /** The counter value a generated id carries, or -1 for any other id. */
  function Count(e: Element): int {
    match e.id
    case Uid(_, _, n) => n
    case _ => -1
  }

  /** `createBase(type, x, y, w, h, extra)` whose own `uid(type)` takes counter value `n`. */
  function CreateBase(kind: string, x: real, y: real, w: real, h: real, extra: Extra, n: nat, env: Env)
    : (e: Element)
    ensures Fresh(e)
    ensures e.elementType == extra.elementType.GetOr(kind)
    ensures e.x == x && e.y == y && e.width == w && e.height == h
    ensures e.strokeColor == extra.strokeColor.GetOr(Black)
    ensures e.backgroundColor == extra.backgroundColor.GetOr(Tan)
    ensures e.roundness == extra.roundness.GetOr(if kind == "rectangle" then Some(3) else None)
    ensures e.id == extra.id.GetOr(MakeUid(kind, n, env))
  {
    var r := env.entropy(n);
    var base := Element(
      kind, x, y, w, h, 0.0, Black, Tan, "solid", 2, "solid", 0, 100,
      if kind == "rectangle" then Some(3) else None,
      r.seed, 1, r.versionNonce, false, r.updated, false,
      MakeUid(kind, n, env), [], None, None);
    Spread(base, extra)
  }

  /** `textElem(text, x, y, w, h)`: the `uid("text")` in its `extra` is
      evaluated first and takes `n`, the one inside `createBase` takes
      `n + 1` and is overwritten. */
  function TextElem(text: string, x: real, y: real, w: real, h: real, n: nat, env: Env): (e: Element)
    ensures Fresh(e)
    ensures e.elementType == "text" && e.x == x && e.y == y && e.width == w && e.height == h
    ensures e.backgroundColor == Transparent && e.strokeColor == Black && e.roundness.None?
    ensures e.id == MakeUid("text", n, env) && Count(e) == n
    ensures e.text.Some? && e.text.value.text == text && e.text.value.originalText == text
    ensures e.text.Some? && e.text.value.fontSize == 14
    ensures e.text.Some? && e.text.value.baseline == RMax(12.0, h * 0.8)
    ensures e.text.Some? && e.text.value.baseline >= 12.0 && e.text.value.baseline >= h * 0.8
  {
    var props := TextProps(text, 14, 1, "center", "middle", RMax(12.0, h * 0.8), text, 1.25);
    var extra := NoExtra.(backgroundColor := Some(Transparent), text := Some(props),
                          id := Some(MakeUid("text", n, env)));
    CreateBase("text", x, y, w, h, extra, n + 1, env)
  }

  function Xs(ps: seq<Point>): (xs: seq<real>)
    ensures |xs| == |ps| && forall i :: 0 <= i < |ps| ==> xs[i] == ps[i].x
  {
    seq(|ps|, i requires 0 <= i < |ps| => ps[i].x)
  }

  function Ys(ps: seq<Point>): (ys: seq<real>)
    ensures |ys| == |ps| && forall i :: 0 <= i < |ps| ==> ys[i] == ps[i].y
  {
    seq(|ps|, i requires 0 <= i < |ps| => ps[i].y)
  }

  /** The running minimum the source's loop computes. */
  function Least(xs: seq<real>): (m: real)
    requires |xs| > 0
    ensures forall i :: 0 <= i < |xs| ==> m <= xs[i]
    ensures exists i :: 0 <= i < |xs| && m == xs[i]
    decreases |xs|
  {
    if |xs| == 1 then xs[0]
    else
      var rest := Least(xs[..|xs| - 1]);
      assert forall i :: 0 <= i < |xs| - 1 ==> xs[..|xs| - 1][i] == xs[i];
      if xs[|xs| - 1] < rest then xs[|xs| - 1] else rest
  }

  /** The running maximum the source's loop computes. */
  function Greatest(xs: seq<real>): (m: real)
    requires |xs| > 0
    ensures forall i :: 0 <= i < |xs| ==> xs[i] <= m
    ensures exists i :: 0 <= i < |xs| && m == xs[i]
    decreases |xs|
  {
    if |xs| == 1 then xs[0]
    else
      var rest := Greatest(xs[..|xs| - 1]);
      assert forall i :: 0 <= i < |xs| - 1 ==> xs[..|xs| - 1][i] == xs[i];
      if xs[|xs| - 1] > rest then xs[|xs| - 1] else rest
  }

  /** The points made relative to the first one. */
  function Relative(abs: seq<Point>): (rel: seq<Point>)
    requires |abs| > 0
    ensures |rel| == |abs| && rel[0] == Point(0.0, 0.0)
    ensures forall i :: 0 <= i < |abs| ==> rel[i] == Point(abs[i].x - abs[0].x, abs[i].y - abs[0].y)
  {
    seq(|abs|, i requires 0 <= i < |abs| => Point(abs[i].x - abs[0].x, abs[i].y - abs[0].y))
  }

  /** `arrowFromPointsAbs(absPoints)` whose `uid("arrow")` takes counter value
      `n`. The source reads `absPoints[0]` unguarded; every call site passes
      at least one point. The element's box is the bounding box of the
      absolute points, widened to at least 1 on each axis. */
  function ArrowFromPointsAbs(abs: seq<Point>, n: nat, env: Env): (e: Element)
    requires |abs| > 0
    ensures Fresh(e)
    ensures e.elementType == "arrow" && e.endArrowhead == Some("arrow") && e.roundness == Some(2)
    ensures e.backgroundColor == Transparent && e.strokeColor == Black && e.strokeWidth == 2
    ensures e.id == MakeUid("arrow", n, env) && Count(e) == n
    ensures e.points == Relative(abs)
  {
    var rel := Relative(abs);
    var minX, maxX := Least(Xs(rel)), Greatest(Xs(rel));
    var minY, maxY := Least(Ys(rel)), Greatest(Ys(rel));
    var r := env.entropy(n);
    Element(
      "arrow", abs[0].x + minX, abs[0].y + minY,
      RMax(1.0, RAbs(maxX - minX)), RMax(1.0, RAbs(maxY - minY)),
      0.0, Black, Transparent, "solid", 2, "solid", 0, 100, Some(2),
      r.seed, 1, r.versionNonce, false, r.updated, false,
      MakeUid("arrow", n, env), rel, Some("arrow"), None)
  }

  /** The arrow keeps every point, relative to the first, and its box is the
      tight bounding box of the absolute points, widened to at least 1 on each axis. */
  lemma ArrowBoundingBox(abs: seq<Point>, n: nat, env: Env)
    requires |abs| > 0
    ensures var e := ArrowFromPointsAbs(abs, n, env);
            && |e.points| == |abs| && e.points[0] == Point(0.0, 0.0)
            && (forall i :: 0 <= i < |abs| ==> e.points[i] == Point(abs[i].x - abs[0].x, abs[i].y - abs[0].y))
            && e.width >= 1.0 && e.height >= 1.0
            && (forall i :: 0 <= i < |abs| ==> e.x <= abs[i].x <= e.x + e.width)
            && (forall i :: 0 <= i < |abs| ==> e.y <= abs[i].y <= e.y + e.height)
            && (exists i :: 0 <= i < |abs| && abs[i].x == e.x)
            && (exists i :: 0 <= i < |abs| && abs[i].y == e.y)
            && (e.width > 1.0 ==> exists i :: 0 <= i < |abs| && abs[i].x == e.x + e.width)
            && (e.height > 1.0 ==> exists i :: 0 <= i < |abs| && abs[i].y == e.y + e.height)
  {
    var rel := Relative(abs);
    assert forall i :: 0 <= i < |abs| ==> abs[i].x == abs[0].x + Xs(rel)[i];
    assert forall i :: 0 <= i < |abs| ==> abs[i].y == abs[0].y + Ys(rel)[i];
  }

  function CenterOf(n: NodeBlueprint): Point {
    Point(n.x + n.width / 2.0, n.y + n.height / 2.0)
  }

  /** `borderPointTowards`: diamonds use the polygon intersection, every
      other kind the rectangle one. */
  function BorderPointTowards(g: Geometry, node: NodeBlueprint, target: Point): Point {
    if node.kind == Diamond then g.diamondBorder(node, target.x, target.y)
    else g.rectBorder(node, target.x, target.y)
  }

  /** The last index below `n` holding a node with this id. */
  function LastIndexOf(nodes: seq<NodeBlueprint>, id: string, n: nat): (r: Option<nat>)
    requires n <= |nodes|
    ensures r.None? <==> forall i :: 0 <= i < n ==> nodes[i].id != id
    ensures r.Some? ==> r.value < n && nodes[r.value].id == id && forall k :: r.value < k < n ==> nodes[k].id != id
    decreases n
  {
    if n == 0 then None
    else if nodes[n - 1].id == id then Some(n - 1)
    else LastIndexOf(nodes, id, n - 1)
  }

  /** `nodeMap.get(id)` for `new Map(nodes.map(n => [n.id, n]))`: a later
      node with a repeated id replaces the earlier one. */
  function Lookup(nodes: seq<NodeBlueprint>, id: string): (r: Option<NodeBlueprint>)
    ensures r.None? <==> forall i :: 0 <= i < |nodes| ==> nodes[i].id != id
    ensures r.Some? ==> exists i :: 0 <= i < |nodes| && nodes[i] == r.value && r.value.id == id &&
                          forall k :: i < k < |nodes| ==> nodes[k].id != id
  {
    match LastIndexOf(nodes, id, |nodes|)
    case None => None
    case Some(i) => Some(nodes[i])
  }

  /** Whether `e.points` is a non-empty list: such an edge is drawn as given. */
  predicate HasPoints(e: EdgeBlueprint) {
    e.points.Some? && |e.points.value| > 0
  }

  /** Whether the edge is drawn between two nodes that both resolve. */
  predicate Anchored(e: EdgeBlueprint, nodes: seq<NodeBlueprint>) {
    !HasPoints(e) && Lookup(nodes, e.from).Some? && Lookup(nodes, e.to).Some?
  }

  /** The fallback arrow's point list `[[0, 0], [0, 1]]`. */
  const FallbackPoints := [Point(0.0, 0.0), Point(0.0, 1.0)]

  /** Counter values strictly increase along `es`, all within `(lo, hi]`. */
  predicate Numbered(es: seq<Element>, lo: int, hi: int) {
    && (forall i :: 0 <= i < |es| ==> lo < Count(es[i]) <= hi)
    && (forall i, j :: 0 <= i < j < |es| ==> Count(es[i]) < Count(es[j]))
  }

  lemma NumberedConcat(a: seq<Element>, b: seq<Element>, lo: int, mid: int, hi: int)
    requires lo <= mid <= hi
    requires Numbered(a, lo, mid) && Numbered(b, mid, hi)
    ensures Numbered(a + b, lo, hi)
  {
    forall i | 0 <= i < |a + b| ensures lo < Count((a + b)[i]) <= hi {
      if i < |a| {
        assert (a + b)[i] == a[i];
      } else {
        assert (a + b)[i] == b[i - |a|];
      }
    }
    forall i, j | 0 <= i < j < |a + b| ensures Count((a + b)[i]) < Count((a + b)[j]) {
      if j < |a| {
        assert (a + b)[i] == a[i] && (a + b)[j] == a[j];
      } else if i >= |a| {
        assert (a + b)[i] == b[i - |a|] && (a + b)[j] == b[j - |a|];
      } else {
        assert (a + b)[i] == a[i] && (a + b)[j] == b[j - |a|];
      }
    }
  }

  lemma NumberedSingle(a: Element, lo: int, hi: int)
    requires lo < Count(a) <= hi
    ensures Numbered([a], lo, hi)
  {
  }

  lemma NumberedPair(a: Element, b: Element, lo: int, hi: int)
    requires lo < Count(a) < Count(b) <= hi
    ensures Numbered([a, b], lo, hi)
  {
    forall i, j | 0 <= i < j < 2 ensures Count([a, b][i]) < Count([a, b][j]) {
      assert i == 0 && j == 1;
    }
  }

  /** The label of an anchored edge: a 60 by 20 text box centred 14 units
      off the midpoint of the arrow, perpendicular to it. */
  function EdgeCaption(text: string, start: Point, end: Point, n: nat, env: Env): (e: Element)
    ensures e.elementType == "text" && e.text.Some? && e.text.value.text == text
    ensures e.width == 60.0 && e.height == 20.0 && Count(e) == n
  {
    var mid := Point((start.x + end.x) / 2.0, (start.y + end.y) / 2.0);
    var ofs := env.geometry.perpOffset(start, end, 14.0);
    TextElem(text, mid.x + ofs.x - 30.0, mid.y + ofs.y - 10.0, 60.0, 20.0, n, env)
  }

  /** The two-point arrow from `start` to `end`. */
  function StraightArrow(start: Point, end: Point, n: nat, env: Env): (e: Element)
    ensures e.elementType == "arrow" && Count(e) == n
    ensures e.points == [Point(0.0, 0.0), Point(end.x - start.x, end.y - start.y)]
  {
    var e := ArrowFromPointsAbs([start, end], n, env);
    assert e.points[1] == Point(end.x - start.x, end.y - start.y);
    e
  }

  /** The arrow between two resolved nodes, anchored on their borders,
      and its label text near the midpoint when the label is truthy. */
  function AnchoredEdge(from: NodeBlueprint, to: NodeBlueprint, caption: Option<string>, counter: nat, env: Env)
    : (r: Built)
    ensures |r.elements| == (if TruthyOpt(caption) then 2 else 1)
    ensures r.elements[0].elementType == "arrow"
    ensures |r.elements| == 2 ==> r.elements[1].elementType == "text" && r.elements[1].text.Some? &&
                                  r.elements[1].text.value.text == caption.value
    ensures Numbered(r.elements, counter, r.counter)
  {
    var start := BorderPointTowards(env.geometry, from, CenterOf(to));
    var end := BorderPointTowards(env.geometry, to, CenterOf(from));
    var arrow := StraightArrow(start, end, counter + 1, env);
    if TruthyOpt(caption) then
      var text := EdgeCaption(caption.value, start, end, counter + 2, env);
      NumberedPair(arrow, text, counter, counter + 3);
      Built([arrow, text], counter + 3)
    else
      NumberedSingle(arrow, counter, counter + 1);
      Built([arrow], counter + 1)
  }

  /** One iteration of the edge loop, starting from counter value `counter`. */
  function EdgeToElements(e: EdgeBlueprint, nodes: seq<NodeBlueprint>, counter: nat, env: Env): (r: Built)
    ensures |r.elements| == (if Anchored(e, nodes) && TruthyOpt(e.labelText) then 2 else 1)
    ensures r.elements[0].elementType == "arrow"
    ensures Numbered(r.elements, counter, r.counter)
  {
    if HasPoints(e) then
      Built([ArrowFromPointsAbs(e.points.value, counter + 1, env)], counter + 1)
    else
      match (Lookup(nodes, e.from), Lookup(nodes, e.to))
      case (Some(from), Some(to)) => AnchoredEdge(from, to, e.labelText, counter, env)
      case _ => Built([ArrowFromPointsAbs(FallbackPoints, counter + 1, env)], counter + 1)
  }

  /** What each edge becomes: explicit points are drawn as given (relative
      to the first) and never labelled; an anchored edge gets its label text
      iff the label is truthy. */
  lemma EdgeOutcome(e: EdgeBlueprint, nodes: seq<NodeBlueprint>, counter: nat, env: Env)
    ensures var r := EdgeToElements(e, nodes, counter, env);
            && (HasPoints(e) ==> r.elements == [ArrowFromPointsAbs(e.points.value, counter + 1, env)])
            && (HasPoints(e) ==> r.elements[0].points == Relative(e.points.value))
            && (|r.elements| == 2 <==> Anchored(e, nodes) && TruthyOpt(e.labelText))
            && (|r.elements| == 2 ==> r.elements[1].elementType == "text" && r.elements[1].text.Some? &&
                                      r.elements[1].text.value.text == e.labelText.value)
  {
    var r := EdgeToElements(e, nodes, counter, env);
    if HasPoints(e) {
      assert r.elements[0].points == Relative(e.points.value);
    }
  }

  /** The edge loop of `blueprintToElements`, in edge order. */
  function EdgesToElements(edges: seq<EdgeBlueprint>, nodes: seq<NodeBlueprint>, counter: nat, env: Env)
    : (r: Built)
    ensures counter <= r.counter
    ensures Numbered(r.elements, counter, r.counter)
    decreases |edges|
  {
    if |edges| == 0 then Built([], counter)
    else
      var first := EdgeToElements(edges[0], nodes, counter, env);
      var rest := EdgesToElements(edges[1..], nodes, first.counter, env);
      NumberedConcat(first.elements, rest.elements, counter, first.counter, rest.counter);
      Built(first.elements + rest.elements, rest.counter)
  }

  /** The style `createBase` receives for a shape node: each field the node's
      style gives (non-nullish) wins over the default. */
  function BaseStyle(n: NodeBlueprint): (x: Extra)
    ensures x.backgroundColor.Some? && x.strokeColor.Some? && x.roundness.Some?
    ensures x.elementType.None? && x.id.None?
  {
    var bg := if n.style.Some? then n.style.value.backgroundColor else None;
    var stroke := if n.style.Some? then n.style.value.strokeColor else None;
    var round := if n.style.Some? && n.style.value.roundness.Some? then n.style.value.roundness
                 else if n.kind == Rectangle then Some(3) else None;
    NoExtra.(backgroundColor := Some(bg.GetOr(Tan)), strokeColor := Some(stroke.GetOr(Black)),
             roundness := Some(round))
  }

  /** The label box of a shape node: inset by 6, a third of the height tall. */
  function LabelFor(n: NodeBlueprint, counter: nat, env: Env): Element
    requires TruthyOpt(n.labelText)
  {
    TextElem(n.labelText.value, n.x + 6.0, n.y + RMax(6.0, n.height / 3.0), n.width - 12.0,
             RMax(20.0, n.height / 3.0), counter, env)
  }

  /** One node of the `flatMap`. */
  function NodeToElements(n: NodeBlueprint, counter: nat, env: Env): (r: Built)
    ensures |r.elements| == (if n.kind != TextNode && TruthyOpt(n.labelText) then 2 else 1)
    ensures n.kind == TextNode ==> r.elements[0].elementType == "text"
    ensures n.kind != TextNode ==> r.elements[0].elementType == KindName(n.kind)
    ensures |r.elements| == 2 ==> r.elements[1].elementType == "text"
    ensures Numbered(r.elements, counter, r.counter)
  {
    if n.kind == TextNode then
      Built([TextElem(n.labelText.GetOr(""), n.x, n.y, n.width, n.height, counter + 1, env)], counter + 2)
    else
      var shape := CreateBase(KindName(n.kind), n.x, n.y, n.width, n.height, BaseStyle(n), counter + 1, env);
      if TruthyOpt(n.labelText) then Built([shape, LabelFor(n, counter + 2, env)], counter + 3)
      else Built([shape], counter + 1)
  }

  function NodesToElements(nodes: seq<NodeBlueprint>, counter: nat, env: Env): (r: Built)
    ensures counter <= r.counter
    ensures Numbered(r.elements, counter, r.counter)
    decreases |nodes|
  {
    if |nodes| == 0 then Built([], counter)
    else
      var first := NodeToElements(nodes[0], counter, env);
      var rest := NodesToElements(nodes[1..], first.counter, env);
      NumberedConcat(first.elements, rest.elements, counter, first.counter, rest.counter);
      Built(first.elements + rest.elements, rest.counter)
  }

  /** `blueprintToElements(nodes, edges)` with `_counter` at `counter`: all
      edge elements, then all node elements. */
  function BlueprintToElements(nodes: seq<NodeBlueprint>, edges: seq<EdgeBlueprint>, counter: nat, env: Env)
    : (r: Built)
    ensures Numbered(r.elements, counter, r.counter)
    ensures forall i, j :: 0 <= i < j < |r.elements| ==> r.elements[i].id != r.elements[j].id
  {
    var es := EdgesToElements(edges, nodes, counter, env);
    var ns := NodesToElements(nodes, es.counter, env);
    NumberedConcat(es.elements, ns.elements, counter, es.counter, ns.counter);
    Built(es.elements + ns.elements, ns.counter)
  }

  // ---- properties ----

  function CountType(es: seq<Element>, t: string): (k: nat)
    ensures k <= |es|
  {
    if |es| == 0 then 0 else (if es[0].elementType == t then 1 else 0) + CountType(es[1..], t)
  }

  lemma {:induction false} CountTypeConcat(a: seq<Element>, b: seq<Element>, t: string)
    ensures CountType(a + b, t) == CountType(a, t) + CountType(b, t)
    decreases |a|
  {
    if |a| > 0 {
      assert (a + b)[0] == a[0];
      assert (a + b)[1..] == a[1..] + b;
      CountTypeConcat(a[1..], b, t);
      assert CountType(a + b, t) == (if a[0].elementType == t then 1 else 0) + CountType(a[1..] + b, t);
    } else {
      assert a + b == b;
    }
  }

  /** Each edge yields exactly one arrow, and nodes yield none. */
  lemma {:induction false} OneArrowPerEdge(edges: seq<EdgeBlueprint>, nodes: seq<NodeBlueprint>, counter: nat, env: Env)
    ensures CountType(EdgesToElements(edges, nodes, counter, env).elements, "arrow") == |edges|
    decreases |edges|
  {
    if |edges| > 0 {
      var first := EdgeToElements(edges[0], nodes, counter, env);
      var rest := EdgesToElements(edges[1..], nodes, first.counter, env);
      OneArrowPerEdge(edges[1..], nodes, first.counter, env);
      CountTypeConcat(first.elements, rest.elements, "arrow");
      assert CountType(first.elements, "arrow") == 1 by {
        if |first.elements| == 2 {
          assert first.elements[1..][1..] == [];
        }
      }
    }
  }

  lemma {:induction false} NodesMakeNoArrows(nodes: seq<NodeBlueprint>, counter: nat, env: Env)
    ensures CountType(NodesToElements(nodes, counter, env).elements, "arrow") == 0
    decreases |nodes|
  {
    if |nodes| > 0 {
      var first := NodeToElements(nodes[0], counter, env);
      var rest := NodesToElements(nodes[1..], first.counter, env);
      NodesMakeNoArrows(nodes[1..], first.counter, env);
      CountTypeConcat(first.elements, rest.elements, "arrow");
      assert CountType(first.elements, "arrow") == 0 by {
        if |first.elements| == 2 {
          assert first.elements[1..][1..] == [];
        }
      }
    }
  }

  /** The whole conversion holds exactly one arrow per edge. */
  lemma {:induction false} ArrowsMatchEdges(nodes: seq<NodeBlueprint>, edges: seq<EdgeBlueprint>, counter: nat, env: Env)
    ensures CountType(BlueprintToElements(nodes, edges, counter, env).elements, "arrow") == |edges|
  {
    var es := EdgesToElements(edges, nodes, counter, env);
    var ns := NodesToElements(nodes, es.counter, env);
    OneArrowPerEdge(edges, nodes, counter, env);
    NodesMakeNoArrows(nodes, es.counter, env);
    CountTypeConcat(es.elements, ns.elements, "arrow");
  }

  /** Every edge-derived element precedes, and carries a smaller counter
      than, every node-derived element. */
  lemma EdgesBeforeNodes(nodes: seq<NodeBlueprint>, edges: seq<EdgeBlueprint>, counter: nat, env: Env)
    ensures var es := EdgesToElements(edges, nodes, counter, env);
            var r := BlueprintToElements(nodes, edges, counter, env);
            && r.elements[..|es.elements|] == es.elements
            && r.elements[|es.elements|..] == NodesToElements(nodes, es.counter, env).elements
            && (forall i, j :: 0 <= i < |es.elements| <= j < |r.elements| ==>
                  Count(r.elements[i]) < Count(r.elements[j]))
  {
  }

  /** An edge whose endpoint is not a node yields the fallback arrow alone:
      the unit-high arrow at the origin. */
  lemma DanglingEdgeFallback(e: EdgeBlueprint, nodes: seq<NodeBlueprint>, counter: nat, env: Env)
    requires !HasPoints(e)
    requires Lookup(nodes, e.from).None? || Lookup(nodes, e.to).None?
    ensures var r := EdgeToElements(e, nodes, counter, env);
            && r.elements == [ArrowFromPointsAbs(FallbackPoints, counter + 1, env)]
            && r.elements[0].x == 0.0 && r.elements[0].y == 0.0
            && r.elements[0].width == 1.0 && r.elements[0].height == 1.0
  {
    ArrowBoundingBox(FallbackPoints, counter + 1, env);
  }

  /** A shape node's colours and roundness: the node's own non-nullish style
      fields, otherwise tan fill, black stroke, and `{type: 3}` only for rectangles. */
  lemma NodeStyleDefaults(n: NodeBlueprint, counter: nat, env: Env)
    requires n.kind != TextNode
    ensures var shape := NodeToElements(n, counter, env).elements[0];
            var s := n.style;
            && shape.backgroundColor == (if s.Some? && s.value.backgroundColor.Some? then s.value.backgroundColor.value else Tan)
            && shape.strokeColor == (if s.Some? && s.value.strokeColor.Some? then s.value.strokeColor.value else Black)
            && (s.None? || s.value.roundness.None? ==> (shape.roundness.Some? <==> n.kind == Rectangle))
            && (s.Some? && s.value.roundness.Some? ==> shape.roundness == s.value.roundness)
            && Fresh(shape)
  {
  }

  /** A labelled shape's label sits inside the node's left and top edges and is the node's text. */
  lemma ShapeLabelPlacement(n: NodeBlueprint, counter: nat, env: Env)
    requires n.kind != TextNode && TruthyOpt(n.labelText)
    ensures var caption := NodeToElements(n, counter, env).elements[1];
            && caption.x == n.x + 6.0 && caption.y == n.y + RMax(6.0, n.height / 3.0)
            && caption.width == n.width - 12.0 && caption.height == RMax(20.0, n.height / 3.0)
            && caption.y >= n.y + 6.0 && caption.height >= 20.0
            && caption.text.Some? && caption.text.value.text == n.labelText.value
  {
  }

  /** A text node is one text element with the label, or empty text when it has none. */
  lemma TextNodeIsOneText(n: NodeBlueprint, counter: nat, env: Env)
    requires n.kind == TextNode
    ensures var r := NodeToElements(n, counter, env);
            && |r.elements| == 1 && r.elements[0].text.Some?
            && r.elements[0].text.value.text == n.labelText.GetOr("")
  {
  }
}

=== FILE: outcomes.dfy ===
/** Failure-carrying wrappers shared by every module, and the handful of
    JavaScript value rules (truthiness, `||`, `??`) the modelled code relies on. */
module Outcomes {

  /** A value that may be absent: `null`/`undefined` in the source. */
  datatype Option<+T> = None | Some(value: T) {

    /** The wrapped value, or `default` when absent (JavaScript's `??`). */
    function GetOr(default: T): T {
      match this
      case Some(v) => v
      case None => default
    }
  }

  /** The outcome of an operation that may throw. */
  datatype Result<+R, +E> = Success(value: R) | Failure(error: E) {

    predicate IsFailure() {
      Failure?
    }

    function PropagateFailure<U>(): Result<U, E>
      requires Failure?
    {
      Failure(error)
    }

    function Extract(): R
      requires Success?
    {
      value
    }
  }

  /** A string is truthy in JavaScript exactly when it is non-empty. */
  predicate Truthy(s: string) {
    s != ""
  }

  /** An optional string is truthy when it is present and non-empty. */
  predicate TruthyOpt(o: Option<string>) {
    o.Some? && o.value != ""
  }

  /** JavaScript's `a || b` on strings: `a` when truthy, otherwise `b`. */
  function OrElse(a: string, b: string): (r: string)
    ensures Truthy(a) ==> r == a
    ensures !Truthy(a) ==> r == b
  {
    if a != "" then a else b
  }

  /** JavaScript's `o || b` where `o` may be absent or empty. */
  function OptOrElse(o: Option<string>, b: string): (r: string)
    ensures TruthyOpt(o) ==> r == o.value
    ensures !TruthyOpt(o) ==> r == b
  {
    if o.Some? && o.value != "" then o.value else b
  }
}

=== FILE: scene_sync.dfy ===
/** Version-gated save and load of a room's encrypted scene
    (excalidraw-app/data/supabase.ts).

    The `scenes` table is a map from room id to row, and every request to it
    carries the failure the backend answers with, if any. The helpers whose
    code is not part of this model (scene version, reconciliation,
    restoration, syncable filtering, JSON, the cipher) are function values in
    `Collaborators`: every property below holds whatever they compute, and
    the round-trip lemmas name what they assume of them. */
module SceneSync {
  import opened Outcomes
  import Base64
  import opened Elements

  type Byte = Base64.Byte
  type Scene = seq<Element>

  /** Identity of a socket connection. */
  type SocketId = string

  /** The collaboration context a save runs in; any part may be missing. */
  datatype Portal = Portal(roomId: Option<string>, roomKey: Option<string>, socket: Option<SocketId>)

  /** A room to sync with exists: a socket, a non-empty room id and a non-empty key. */
  predicate HasRoom(p: Portal) {
    p.socket.Some? && TruthyOpt(p.roomId) && TruthyOpt(p.roomKey)
  }

  /** The helpers supabase.ts imports. `serialize` is `JSON.stringify` then
      UTF-8 encoding; `parse` is UTF-8 decoding then `JSON.parse`, None when
      it throws; `encrypt(key, iv, plaintext)` is the ciphertext under the
      fresh `iv`, None when the cipher refuses the key; `decrypt(iv,
      ciphertext, key)` is None when authentication fails. */
  datatype Collaborators = Collaborators(
    sceneVersion: Scene -> int,
    reconcile: (Scene, Scene) -> Scene,
    syncable: Scene -> Scene,
    restore: Scene -> Scene,
    restoreVisible: Scene -> Scene,
    serialize: Scene -> seq<Byte>,
    parse: seq<Byte> -> Option<Scene>,
    encrypt: (string, seq<Byte>, seq<Byte>) -> Option<seq<Byte>>,
    decrypt: (seq<Byte>, seq<Byte>, string) -> Option<seq<Byte>>)

  // ---- per-socket version cache ----

  /** The last scene version synced over each socket. */
  type VersionCache = map<SocketId, int>

  function CachedVersion(cache: VersionCache, socket: SocketId): (v: Option<int>)
    ensures v.Some? <==> socket in cache
    ensures v.Some? ==> v.value == cache[socket]
  {
    if socket in cache then Some(cache[socket]) else None
  }

  /** `SupabaseSceneVersionCache.set`: records the version of `elements` for
      `socket` and leaves every other socket's entry alone. */
  function RecordVersion(h: Collaborators, cache: VersionCache, socket: SocketId, elements: Scene): (c: VersionCache)
    ensures c.Keys == cache.Keys + {socket}
    ensures CachedVersion(c, socket) == Some(h.sceneVersion(elements))
    ensures forall s :: s in cache && s != socket ==> c[s] == cache[s]
  {
    cache[socket := h.sceneVersion(elements)]
  }

  /** `isSavedToSupabase`: with no room there is nothing to save; otherwise
      the scene is saved when the socket's cached version is the scene's version. */
  function IsSavedToSupabase(h: Collaborators, cache: VersionCache, portal: Portal, elements: Scene): (saved: bool)
    ensures !HasRoom(portal) ==> saved
    ensures HasRoom(portal) && portal.socket.value !in cache ==> !saved
    ensures HasRoom(portal) && portal.socket.value in cache ==>
              (saved <==> cache[portal.socket.value] == h.sceneVersion(elements))
  {
    if HasRoom(portal) then
      CachedVersion(cache, portal.socket.value) == Some(h.sceneVersion(elements))
    else
      true
  }

  // ---- the scenes table ----

  datatype StoredScene = StoredScene(
    id: string,
    sceneVersion: int,
    iv: string,          // base64
    ciphertext: string,  // base64
    createdAt: string,
    updatedAt: string)

  type SceneTable = map<string, StoredScene>

  /** `NoRows` is what `.single()` reports when the room has no row. */
  datatype StoreError = NoRows | Backend(message: string)

  /** Why a save or load throws. */
  datatype SyncError =
    | Storage(cause: StoreError)   // the upsert was refused
    | Encryption                  // the cipher refused to encrypt under the key
    | Authentication              // the cipher rejected iv, ciphertext or key
    | Malformed                   // `atob` or `JSON.parse` threw

  datatype SelectReply = SelectReply(data: Option<StoredScene>, error: Option<StoreError>)

  /** `.from('scenes').select('*').eq('id', roomId).single()` when the backend
      answers with `fault` (None: the request goes through). */
  function SelectScene(table: SceneTable, roomId: string, fault: Option<StoreError>): (reply: SelectReply)
    ensures reply.data.Some? <==> fault.None? && roomId in table
    ensures reply.data.Some? ==> reply.data.value == table[roomId] && reply.error.None?
    ensures reply.data.None? ==> reply.error.Some?
    ensures fault.Some? ==> reply.error == fault
    ensures fault.None? && roomId !in table ==> reply.error == Some(NoRows)
  {
    if fault.Some? then SelectReply(None, fault)
    else if roomId in table then SelectReply(Some(table[roomId]), None)
    else SelectReply(None, Some(NoRows))
  }

  datatype UpsertReply = UpsertReply(table: SceneTable, error: Option<StoreError>)

  /** `.upsert(row, { onConflict: 'id' })`: replaces the whole row keyed by
      `row.id`, or changes nothing when the backend answers with `fault`. */
  function UpsertScene(table: SceneTable, row: StoredScene, fault: Option<StoreError>): (reply: UpsertReply)
    ensures reply.error == fault
    ensures fault.Some? ==> reply.table == table
    ensures fault.None? ==> reply.table.Keys == table.Keys + {row.id} && reply.table[row.id] == row
    ensures forall k :: k in table && k != row.id ==> k in reply.table && reply.table[k] == table[k]
  {
    if fault.Some? then UpsertReply(table, fault) else UpsertReply(table[row.id := row], None)
  }

  // ---- encryption and packing ----

  /** `createSupabaseSceneDocument`: the row that stores `elements` for
      `roomId`, encrypted under `key` with the fresh nonce `iv`, or the
      throw of `encryptElements`. The two binary columns decode back to
      exactly the nonce and the ciphertext. */
  function CreateSceneDocument(h: Collaborators, roomId: string, elements: Scene, key: string,
                               iv: seq<Byte>, now: string): (r: Result<StoredScene, SyncError>)
    ensures r.Failure? <==> h.encrypt(key, iv, h.serialize(elements)).None?
    ensures r.Failure? ==> r.error == Encryption
    ensures r.Success? ==>
              && r.value.id == roomId
              && r.value.sceneVersion == h.sceneVersion(elements)
              && Base64.Decode(r.value.iv) == Some(iv)
              && Base64.Decode(r.value.ciphertext) == h.encrypt(key, iv, h.serialize(elements))
              && r.value.createdAt == now && r.value.updatedAt == now
  {
    match h.encrypt(key, iv, h.serialize(elements))
    case None => Failure(Encryption)
    case Some(ciphertext) =>
      Base64.RoundTrip(iv);
      Base64.RoundTrip(ciphertext);
      Success(StoredScene(roomId, h.sceneVersion(elements), Base64.Encode(iv), Base64.Encode(ciphertext), now, now))
  }

  /** `decryptElements`: unpack both base64 columns, decrypt, parse. */
  function DecryptElements(h: Collaborators, row: StoredScene, key: string): (r: Result<Scene, SyncError>)
    // a column that is not base64 makes `atob` throw
    ensures Base64.Decode(row.ciphertext).None? || Base64.Decode(row.iv).None? ==> r == Failure(Malformed)
    // a cipher that rejects the decoded columns makes `decryptData` throw
    ensures Base64.Decode(row.ciphertext).Some? && Base64.Decode(row.iv).Some? &&
            h.decrypt(Base64.Decode(row.iv).value, Base64.Decode(row.ciphertext).value, key).None? ==>
              r == Failure(Authentication)
    // the scene comes back exactly when both columns decode, the cipher accepts them and the plaintext parses
    ensures r.Success? <==>
              && Base64.Decode(row.ciphertext).Some? && Base64.Decode(row.iv).Some?
              && var plain := h.decrypt(Base64.Decode(row.iv).value, Base64.Decode(row.ciphertext).value, key);
                 plain.Some? && h.parse(plain.value).Some?
    ensures r.Success? ==>
              h.parse(h.decrypt(Base64.Decode(row.iv).value, Base64.Decode(row.ciphertext).value, key).value)
              == Some(r.value)
    ensures r.Failure? ==> r.error == Malformed || r.error == Authentication
  {
    match (Base64.Decode(row.ciphertext), Base64.Decode(row.iv))
    case (None, _) => Failure(Malformed)
    case (_, None) => Failure(Malformed)
    case (Some(ciphertext), Some(iv)) =>
      match h.decrypt(iv, ciphertext, key)
      case None => Failure(Authentication)
      case Some(plain) =>
        match h.parse(plain)
        case None => Failure(Malformed)
        case Some(scene) => Success(scene)
  }

  /** Reading back a freshly created row gives the scene that was stored,
      provided decryption inverts encryption and parsing inverts serialising. */
  lemma DocumentRoundTrip(h: Collaborators, roomId: string, elements: Scene, key: string,
                          iv: seq<Byte>, now: string)
    requires var c := h.encrypt(key, iv, h.serialize(elements));
             c.Some? ==> h.decrypt(iv, c.value, key) == Some(h.serialize(elements))
    requires h.parse(h.serialize(elements)) == Some(elements)
    ensures var doc := CreateSceneDocument(h, roomId, elements, key, iv, now);
            doc.Success? ==> DecryptElements(h, doc.value, key) == Success(elements)
  {
  }

  // ---- save ----

  /** What the backend answers to the two requests of one save. */
  datatype Faults = Faults(select: Option<StoreError>, upsert: Option<StoreError>)

  /** The state after a save, and its outcome: `Success(None)` is `null`,
      `Success(Some(s))` the saved elements, `Failure` a thrown error. */
  datatype SaveResult = SaveResult(table: SceneTable, cache: VersionCache, outcome: Result<Option<Scene>, SyncError>)

  /** The elements a save writes: the local ones when the select returns no
      row (the select's error is not consulted), otherwise the syncable part
      of local reconciled with the restored remote scene, local first. */
  function ElementsToPersist(h: Collaborators, table: SceneTable, roomId: string, key: string,
                             elements: Scene, fault: Option<StoreError>): (r: Result<Scene, SyncError>)
    ensures fault.Some? || roomId !in table ==> r == Success(elements)
    ensures fault.None? && roomId in table ==>
              match DecryptElements(h, table[roomId], key)
              case Failure(e) => r == Failure(e)
              case Success(remote) => r == Success(h.syncable(h.reconcile(elements, h.syncable(h.restore(remote)))))
  {
    var reply := SelectScene(table, roomId, fault);
    if reply.data.None? then Success(elements)
    else
      match DecryptElements(h, reply.data.value, key)
      case Failure(e) => Failure(e)
      case Success(remote) =>
        var existing := h.syncable(h.restore(remote));
        Success(h.syncable(h.reconcile(elements, existing)))
  }

  /** `saveToSupabase`. `iv` is the nonce the cipher draws and `now` the clock. */
  function SaveToSupabase(h: Collaborators, table: SceneTable, cache: VersionCache, portal: Portal,
                          elements: Scene, faults: Faults, iv: seq<Byte>, now: string): (r: SaveResult)
    // nothing happens without a room or when the scene is already saved
    ensures !HasRoom(portal) || IsSavedToSupabase(h, cache, portal, elements) ==>
              r == SaveResult(table, cache, Success(None))
    // a thrown error changes neither the table nor the cache
    ensures r.outcome.Failure? ==> r.table == table && r.cache == cache
    // a refused upsert is rethrown
    ensures HasRoom(portal) && !IsSavedToSupabase(h, cache, portal, elements) && faults.upsert.Some? ==>
              r.outcome.Failure?
    // a completed save writes exactly the row for the returned elements and caches their version
    ensures r.outcome.Success? && r.outcome.value.Some? ==>
              && HasRoom(portal)
              && var saved := r.outcome.value.value;
                 && ElementsToPersist(h, table, portal.roomId.value, portal.roomKey.value, elements, faults.select) == Success(saved)
                 && var doc := CreateSceneDocument(h, portal.roomId.value, saved, portal.roomKey.value, iv, now);
                    && doc.Success?
                    && r.table == table[portal.roomId.value := doc.value]
                    && r.cache == RecordVersion(h, cache, portal.socket.value, saved)
    // every call that gets past the gate and whose upsert goes through saves,
    // unless the elements to persist or their encryption throw
    ensures HasRoom(portal) && !IsSavedToSupabase(h, cache, portal, elements) && faults.upsert.None? ==>
              match ElementsToPersist(h, table, portal.roomId.value, portal.roomKey.value, elements, faults.select)
              case Failure(e) => r.outcome == Failure(e)
              case Success(saved) =>
                if h.encrypt(portal.roomKey.value, iv, h.serialize(saved)).None?
                then r == SaveResult(table, cache, Failure(Encryption))
                else r.outcome == Success(Some(saved))
    // a refused encryption is rethrown before the upsert is sent
    ensures r.outcome == Failure(Encryption) ==>
              && HasRoom(portal)
              && var saved := ElementsToPersist(h, table, portal.roomId.value, portal.roomKey.value, elements, faults.select);
                 saved.Success? && h.encrypt(portal.roomKey.value, iv, h.serialize(saved.value)).None?
  {
    if !HasRoom(portal) then SaveResult(table, cache, Success(None))
    else
      var roomId, roomKey, socket := portal.roomId.value, portal.roomKey.value, portal.socket.value;
      if IsSavedToSupabase(h, cache, portal, elements) then SaveResult(table, cache, Success(None))
      else
        match ElementsToPersist(h, table, roomId, roomKey, elements, faults.select)
        case Failure(e) => SaveResult(table, cache, Failure(e))
        case Success(finalElements) =>
          match CreateSceneDocument(h, roomId, finalElements, roomKey, iv, now)
          case Failure(e) => SaveResult(table, cache, Failure(e))
          case Success(storedScene) =>
            var reply := UpsertScene(table, storedScene, faults.upsert);
            if reply.error.Some? then SaveResult(table, cache, Failure(Storage(reply.error.value)))
            else SaveResult(reply.table, RecordVersion(h, cache, socket, finalElements), Success(Some(finalElements)))
  }

  /** After a save completes, the returned elements count as saved for the
      same portal, so saving them again is a no-op. */
  lemma SavedAfterSave(h: Collaborators, table: SceneTable, cache: VersionCache, portal: Portal,
                       elements: Scene, faults: Faults, iv: seq<Byte>, now: string,
                       faults': Faults, iv': seq<Byte>, now': string)
    requires SaveToSupabase(h, table, cache, portal, elements, faults, iv, now).outcome.Success?
    requires SaveToSupabase(h, table, cache, portal, elements, faults, iv, now).outcome.value.Some?
    ensures var r := SaveToSupabase(h, table, cache, portal, elements, faults, iv, now);
            var saved := r.outcome.value.value;
            && IsSavedToSupabase(h, r.cache, portal, saved)
            && SaveToSupabase(h, r.table, r.cache, portal, saved, faults', iv', now') ==
               SaveResult(r.table, r.cache, Success(None))
  {
  }

  /** A save that throws leaves the gate as it was, so a retry of the same
      scene is not skipped as already saved. */
  lemma FailedSaveIsRetried(h: Collaborators, table: SceneTable, cache: VersionCache, portal: Portal,
                            elements: Scene, faults: Faults, iv: seq<Byte>, now: string)
    requires SaveToSupabase(h, table, cache, portal, elements, faults, iv, now).outcome.Failure?
    ensures var r := SaveToSupabase(h, table, cache, portal, elements, faults, iv, now);
            HasRoom(portal) && !IsSavedToSupabase(h, r.cache, portal, elements)
  {
  }

  /** Saving into a room with no row stores the local elements unchanged,
      unless the cipher refuses them. */
  lemma FirstSaveStoresLocal(h: Collaborators, table: SceneTable, cache: VersionCache, portal: Portal,
                             elements: Scene, iv: seq<Byte>, now: string)
    requires HasRoom(portal) && portal.roomId.value !in table
    requires !IsSavedToSupabase(h, cache, portal, elements)
    ensures var r := SaveToSupabase(h, table, cache, portal, elements, Faults(None, None), iv, now);
            if h.encrypt(portal.roomKey.value, iv, h.serialize(elements)).None?
            then r == SaveResult(table, cache, Failure(Encryption))
            else
              && r.outcome == Success(Some(elements))
              && r.table[portal.roomId.value].sceneVersion == h.sceneVersion(elements)
  {
  }

  // ---- load ----

  datatype LoadResult = LoadResult(cache: VersionCache, outcome: Result<Option<Scene>, SyncError>)

  /** `loadFromSupabase`: `Success(None)` when the select fails or finds no
      row; otherwise the decrypted scene, restored with invisible elements
      dropped and filtered to syncable elements, whose version is cached for
      the socket when there is one. */
  function LoadFromSupabase(h: Collaborators, table: SceneTable, cache: VersionCache, roomId: string,
                            roomKey: string, socket: Option<SocketId>, fault: Option<StoreError>): (r: LoadResult)
    ensures fault.Some? || roomId !in table ==> r == LoadResult(cache, Success(None))
    ensures r.outcome.Failure? ==> r.cache == cache && DecryptElements(h, table[roomId], roomKey).Failure?
    ensures r.outcome.Success? && r.outcome.value.Some? ==>
              && fault.None? && roomId in table
              && DecryptElements(h, table[roomId], roomKey).Success?
              && r.outcome.value.value == h.syncable(h.restoreVisible(DecryptElements(h, table[roomId], roomKey).value))
              && (socket.Some? ==> r.cache == RecordVersion(h, cache, socket.value, r.outcome.value.value))
              && (socket.None? ==> r.cache == cache)
    // a row that is there is loaded, or its decryption failure is rethrown
    ensures fault.None? && roomId in table ==>
              match DecryptElements(h, table[roomId], roomKey)
              case Failure(e) => r == LoadResult(cache, Failure(e))
              case Success(raw) => r.outcome == Success(Some(h.syncable(h.restoreVisible(raw))))
  {
    var reply := SelectScene(table, roomId, fault);
    if reply.error.Some? || reply.data.None? then LoadResult(cache, Success(None))
    else
      match DecryptElements(h, reply.data.value, roomKey)
      case Failure(e) => LoadResult(cache, Failure(e))
      case Success(raw) =>
        var elements := h.syncable(h.restoreVisible(raw));
        var cache' := if socket.Some? then RecordVersion(h, cache, socket.value, elements) else cache;
        LoadResult(cache', Success(Some(elements)))
  }

  /** A room first saved and then loaded gives back the saved elements (as
      restored and filtered by the loader), provided the cipher and JSON
      round-trip. */
  lemma SaveThenLoad(h: Collaborators, table: SceneTable, cache: VersionCache, portal: Portal,
                     elements: Scene, iv: seq<Byte>, now: string, socket: Option<SocketId>)
    requires HasRoom(portal) && !IsSavedToSupabase(h, cache, portal, elements)
    requires portal.roomId.value !in table
    requires var plain := h.serialize(elements);
             var c := h.encrypt(portal.roomKey.value, iv, plain);
             c.Some? && h.decrypt(iv, c.value, portal.roomKey.value) == Some(plain)
    requires h.parse(h.serialize(elements)) == Some(elements)
    ensures var saved := SaveToSupabase(h, table, cache, portal, elements, Faults(None, None), iv, now);
            var loaded := LoadFromSupabase(h, saved.table, saved.cache, portal.roomId.value,
                                           portal.roomKey.value, socket, None);
            loaded.outcome == Success(Some(h.syncable(h.restoreVisible(elements))))
  {
    var roomId, key := portal.roomId.value, portal.roomKey.value;
    DocumentRoundTrip(h, roomId, elements, key, iv, now);
  }

  /** After a load over a socket, saving the loaded elements is a no-op. */
  lemma LoadedSceneIsSaved(h: Collaborators, table: SceneTable, cache: VersionCache, portal: Portal,
                           fault: Option<StoreError>)
    requires HasRoom(portal)
    requires var r := LoadFromSupabase(h, table, cache, portal.roomId.value, portal.roomKey.value, portal.socket, fault);
             r.outcome.Success? && r.outcome.value.Some?
    ensures var r := LoadFromSupabase(h, table, cache, portal.roomId.value, portal.roomKey.value, portal.socket, fault);
            IsSavedToSupabase(h, r.cache, portal, r.outcome.value.value)
  {
  }
}

=== FILE: shapes.dfy ===
/** The toolbar tool table of packages/excalidraw/components/shapes.tsx and
    the keyboard lookup over it. Icons are not represented. `KEYS.H` and its
    siblings are the lower-case letters and `KEYS["1"]` … `KEYS["9"]` the
    digit strings, as in the shared key table the file imports. */
module Shapes {
  import opened Outcomes

  /** A shortcut: one key, or a list of keys any of which selects the tool. */
  datatype Key = Single(k: string) | AnyOf(ks: seq<string>)

  datatype Tool = Tool(value: string, key: Option<Key>, numericKey: Option<Key>, fillable: bool)

  /** JavaScript's `toString()`: an array joins its items with ",". */
  function KeyText(k: Key): string {
    match k
    case Single(s) => s
    case AnyOf(ks) => Join(ks)
  }

  function Join(ks: seq<string>): string
    decreases |ks|
  {
    if |ks| == 0 then "" else if |ks| == 1 then ks[0] else ks[0] + "," + Join(ks[1..])
  }

  /** The `SHAPES` table, in toolbar order. */
  const SHAPES: seq<Tool> := [
    Tool("hand", Some(Single("h")), Some(Single("1")), false),
    Tool("selection", Some(Single("v")), Some(Single("2")), false),
    Tool("freedraw", Some(Single("p")), Some(Single("3")), false),
    Tool("eraser", Some(Single("e")), Some(Single("4")), false),
    Tool("text", Some(Single("t")), Some(Single("5")), false),
    Tool("canvasbackground", Some(Single("B")), None, false),
    Tool("image", Some(Single("I")), Some(Single("6")), false),
    Tool("shapes", Some(Single("s")), Some(Single("7")), true),
    Tool("emoji", Some(Single("f")), Some(Single("8")), false),
    Tool("flowchart", Some(Single("g")), Some(Single("9")), false),
    Tool("stylepicker", Some(Single("z")), Some(Single("1")), false)
  ]

  /** The tool that takes the hand tool's place in lasso mode. */
  const Lasso := Tool("lasso", Some(Single("v")), Some(Single("1")), true)

  /** `getToolbarTools`: with `"lasso"` as the default selection tool, the
      lasso replaces the first entry; otherwise the table itself. */
  function ToolbarTools(defaultSelectionTool: string): (tools: seq<Tool>)
    ensures |tools| == |SHAPES|
    ensures defaultSelectionTool != "lasso" ==> tools == SHAPES
    ensures defaultSelectionTool == "lasso" ==> tools[0] == Lasso && tools[1..] == SHAPES[1..]
  {
    if defaultSelectionTool == "lasso" then [Lasso, SHAPES[1]] + SHAPES[2..] else SHAPES
  }

  /** Every key a tool answers to: the text of its numeric key, its letter
      key when that is a non-empty string, and every item of a key list. */
  function Shortcuts(tool: Tool): set<string> {
    (if tool.numericKey.Some? then {KeyText(tool.numericKey.value)} else {})
    + (if tool.key.Some? && tool.key.value.Single? && Truthy(tool.key.value.k) then {tool.key.value.k} else {})
    + (if tool.key.Some? && tool.key.value.AnyOf? then set k | k in tool.key.value.ks else {})
  }

  /** The `find` predicate: the numeric key's text equals `key`, or the
      (truthy) letter key equals or lists it. */
  function Matches(tool: Tool, key: string): (r: bool)
    ensures r <==> key in Shortcuts(tool)
  {
    || (tool.numericKey.Some? && key == KeyText(tool.numericKey.value))
    || (tool.key.Some? &&
        match tool.key.value
        case Single(k) => Truthy(k) && k == key
        case AnyOf(ks) => key in ks)
  }

  /** The index `Array.prototype.find` stops at. */
  function FirstMatch(tools: seq<Tool>, key: string): (r: Option<nat>)
    ensures r.Some? ==> r.value < |tools| && Matches(tools[r.value], key)
    ensures r.Some? ==> forall j :: 0 <= j < r.value ==> !Matches(tools[j], key)
    ensures r.None? ==> forall j :: 0 <= j < |tools| ==> !Matches(tools[j], key)
    decreases |tools|
  {
    if |tools| == 0 then None
    else if Matches(tools[0], key) then Some(0)
    else match FirstMatch(tools[1..], key)
      case None => None
      case Some(i) => Some(i + 1)
  }

  /** `findShapeByKey(key, app)`: the earliest tool in toolbar order whose
      shortcut matches, or None (`undefined`). */
  function FindShapeByKey(key: string, defaultSelectionTool: string): (r: Option<Tool>)
    ensures r.Some? ==> exists i :: 0 <= i < |SHAPES| && ToolbarTools(defaultSelectionTool)[i] == r.value &&
                          Matches(r.value, key) &&
                          forall j :: 0 <= j < i ==> !Matches(ToolbarTools(defaultSelectionTool)[j], key)
    ensures r.None? <==> forall t :: t in ToolbarTools(defaultSelectionTool) ==> !Matches(t, key)
  {
    var tools := ToolbarTools(defaultSelectionTool);
    match FirstMatch(tools, key)
    case None => None
    case Some(i) => Some(tools[i])
  }

  // ---- properties ----

  /** No two entries of the table share a `value`. */
  lemma ValuesDistinct()
    ensures forall i, j :: 0 <= i < j < |SHAPES| ==> SHAPES[i].value != SHAPES[j].value
  {
  }

  /** Past the first entry, the toolbar is the table in either mode. */
  lemma ToolbarAgreesPastFirst(defaultSelectionTool: string)
    ensures forall j :: 1 <= j < |SHAPES| ==> ToolbarTools(defaultSelectionTool)[j] == SHAPES[j]
  {
    var tools := ToolbarTools(defaultSelectionTool);
    forall j | 1 <= j < |SHAPES| ensures tools[j] == SHAPES[j] {
      assert tools[1..][j - 1] == SHAPES[1..][j - 1];
    }
  }

  /** A key selects the first toolbar entry it matches. */
  lemma SelectsEarliest(key: string, defaultSelectionTool: string, i: nat)
    requires i < |SHAPES| && Matches(ToolbarTools(defaultSelectionTool)[i], key)
    requires forall j :: 0 <= j < i ==> !Matches(ToolbarTools(defaultSelectionTool)[j], key)
    ensures FindShapeByKey(key, defaultSelectionTool) == Some(ToolbarTools(defaultSelectionTool)[i])
  {
  }

  /** A key that matches neither the first entry nor any later table entry selects nothing. */
  lemma SelectsNothing(key: string, defaultSelectionTool: string)
    requires !Matches(ToolbarTools(defaultSelectionTool)[0], key)
    requires forall j :: 1 <= j < |SHAPES| ==> !Matches(SHAPES[j], key)
    ensures FindShapeByKey(key, defaultSelectionTool).None?
  {
    ToolbarAgreesPastFirst(defaultSelectionTool);
  }

  /** `"1"` is claimed by both the first entry and the style picker; the
      first entry wins, so the style picker is never reached through it. */
  lemma DigitOneSelectsFirstTool(defaultSelectionTool: string)
    ensures var r := FindShapeByKey("1", defaultSelectionTool);
            && r.Some?
            && r.value.value == (if defaultSelectionTool == "lasso" then "lasso" else "hand")
            && r.value.value != "stylepicker"
  {
    assert Matches(ToolbarTools(defaultSelectionTool)[0], "1");
    SelectsEarliest("1", defaultSelectionTool, 0);
  }

  lemma NoEarlierEntryTakesZ()
    ensures forall j :: 0 <= j < 10 ==> !Matches(SHAPES[j], "z")
    ensures Matches(SHAPES[10], "z")
  {
  }

  /** The style picker is reached through its letter `z`. */
  lemma {:induction false} LetterZSelectsStylePicker(defaultSelectionTool: string)
    ensures var r := FindShapeByKey("z", defaultSelectionTool);
            r == Some(SHAPES[10]) && r.value.value == "stylepicker"
  {
    NoEarlierEntryTakesZ();
    ToolbarAgreesPastFirst(defaultSelectionTool);
    assert !Matches(ToolbarTools(defaultSelectionTool)[0], "z");
    SelectsEarliest("z", defaultSelectionTool, 10);
  }

  /** The tool without a numeric key answers to its letter key and nothing else. */
  lemma CanvasBackgroundOnlyByLetter(key: string)
    ensures Matches(SHAPES[5], key) <==> key == "B"
  {
  }

  lemma NoEntryTakesLowerB()
    ensures forall j :: 0 <= j < |SHAPES| ==> !Matches(SHAPES[j], "b")
  {
  }

  /** The letter keys compare case-sensitively: `b` selects nothing. */
  lemma {:induction false} LowerCaseBSelectsNothing(defaultSelectionTool: string)
    ensures FindShapeByKey("b", defaultSelectionTool).None?
  {
    NoEntryTakesLowerB();
    assert !Matches(ToolbarTools(defaultSelectionTool)[0], "b");
    SelectsNothing("b", defaultSelectionTool);
  }

  /** In lasso mode `v` selects the lasso, which comes before the selection
      tool and shares its letter. */
  lemma LassoTakesLetterV()
    ensures var r := FindShapeByKey("v", "lasso"); r == Some(Lasso)
  {
    assert Matches(ToolbarTools("lasso")[0], "v");
  }
}

=== FILE: style_picker.dfy ===
/** The colour swatch and target selection of
    packages/excalidraw/components/StylePicker.tsx. The elements map is given
    as its values in iteration (insertion) order. */
module StylePicker {
  import opened Outcomes
  import opened Elements

  /** `currentColor`: the stroke colour, else the background colour, else black. */
  function CurrentColor(strokeColor: string, backgroundColor: string): (c: string)
    ensures Truthy(c)
    ensures Truthy(strokeColor) ==> c == strokeColor
    ensures !Truthy(strokeColor) && Truthy(backgroundColor) ==> c == backgroundColor
    ensures !Truthy(strokeColor) && !Truthy(backgroundColor) ==> c == Black
  {
    OrElse(strokeColor, OrElse(backgroundColor, Black))
  }

  /** Whether the crossed-out indicator is drawn over the swatch. */
  predicate ShowsTransparentIndicator(strokeColor: string, backgroundColor: string) {
    var c := CurrentColor(strokeColor, backgroundColor);
    c == "transparent" || c == "#ffffff00"
  }

  /** The indicator appears exactly when the colour on show is one of the
      two transparent spellings: a transparent background shows through only
      when no stroke colour is set, and the default black never shows it. */
  lemma TransparentIndicatorCases(strokeColor: string, backgroundColor: string)
    ensures Truthy(strokeColor) ==>
              (ShowsTransparentIndicator(strokeColor, backgroundColor) <==>
               strokeColor == "transparent" || strokeColor == "#ffffff00")
    ensures !Truthy(strokeColor) ==>
              (ShowsTransparentIndicator(strokeColor, backgroundColor) <==>
               backgroundColor == "transparent" || backgroundColor == "#ffffff00")
  {
  }

  /** The property names every plain object inherits from `Object.prototype`.
      Reading one of them from an object that does not own it yields a
      function, or the prototype itself for `__proto__`: always truthy. */
  const InheritedKeys: set<string> := {
    "constructor", "hasOwnProperty", "isPrototypeOf", "propertyIsEnumerable",
    "toLocaleString", "toString", "valueOf", "__proto__",
    "__defineGetter__", "__defineSetter__", "__lookupGetter__", "__lookupSetter__"}

  /** An id that reads as an inherited property. Generated ids contain `-`
      and never do; only an id an element was given can. */
  predicate Inherited(id: ElementId) {
    id.Given? && id.name in InheritedKeys
  }

  /** `(selectedElementIds || {})[element.id]` is truthy: the map's own entry
      when it has one, otherwise whether the id names an inherited property. */
  predicate Selected(e: Element, selected: Option<map<ElementId, bool>>) {
    var own := if selected.Some? then selected.value else map[];
    if e.id in own then own[e.id] else Inherited(e.id)
  }

  /** The selected elements of `values`, in order. */
  function Picked(values: seq<Element>, selected: Option<map<ElementId, bool>>): (r: seq<Element>)
    ensures |r| <= |values|
    decreases |values|
  {
    if |values| == 0 then []
    else
      var front := Picked(values[..|values| - 1], selected);
      if Selected(values[|values| - 1], selected) then front + [values[|values| - 1]] else front
  }

  /** `getTargetElements(elementsMap, appState)`. */
  method GetTargetElements(values: seq<Element>, selected: Option<map<ElementId, bool>>)
    returns (elements: seq<Element>)
    ensures elements == Picked(values, selected)
    ensures forall e :: e in elements <==> e in values && Selected(e, selected)
    ensures selected.None? ==> elements == Picked(values, Some(map[]))
    ensures selected.None? && (forall i :: 0 <= i < |values| ==> !Inherited(values[i].id)) ==> elements == []
  {
    elements := [];
    var i := 0;
    while i < |values|
      invariant 0 <= i <= |values|
      invariant elements == Picked(values[..i], selected)
      invariant forall e :: e in elements <==> e in values[..i] && Selected(e, selected)
    {
      assert values[..i + 1][..i] == values[..i];
      if Selected(values[i], selected) {
        elements := elements + [values[i]];
      }
      assert values[..i + 1] == values[..i] + [values[i]];
      i := i + 1;
    }
    assert values[..i] == values;
    NothingSelected(values);
  }

  /** Selection commutes with concatenation: the result keeps the map's order. */
  lemma {:induction false} PickedConcat(a: seq<Element>, b: seq<Element>, selected: Option<map<ElementId, bool>>)
    ensures Picked(a + b, selected) == Picked(a, selected) + Picked(b, selected)
    decreases |b|
  {
    if |b| == 0 {
      assert a + b == a;
    } else {
      var front := b[..|b| - 1];
      assert (a + b)[..|a + b| - 1] == a + front;
      assert (a + b)[|a + b| - 1] == b[|b| - 1];
      PickedConcat(a, front, selected);
    }
  }

  /** Without a selection map the lookup goes to `{}`: the targets are those
      of an empty map, and there are none unless an id reads as an
      inherited property. */
  lemma {:induction false} NothingSelected(values: seq<Element>)
    ensures Picked(values, None) == Picked(values, Some(map[]))
    ensures (forall i :: 0 <= i < |values| ==> !Inherited(values[i].id)) ==> Picked(values, None) == []
    decreases |values|
  {
    if |values| > 0 {
      var front := values[..|values| - 1];
      assert forall i :: 0 <= i < |front| ==> front[i] == values[i];
      NothingSelected(front);
    }
  }

  /** An element whose id names an inherited property and which the map does
      not own is a target, with or without a map. */
  lemma {:induction false} InheritedIdIsPicked(values: seq<Element>, selected: Option<map<ElementId, bool>>, i: nat)
    requires i < |values| && Inherited(values[i].id)
    requires selected.None? || values[i].id !in selected.value
    ensures values[i] in Picked(values, selected)
    decreases |values|
  {
    var front := values[..|values| - 1];
    if i < |values| - 1 {
      assert front[i] == values[i];
      InheritedIdIsPicked(front, selected, i);
    }
  }

  /** Selecting everything keeps every value in order. */
  lemma {:induction false} EverythingSelected(values: seq<Element>, selected: map<ElementId, bool>)
    requires forall e :: e in values ==> e.id in selected && selected[e.id]
    ensures Picked(values, Some(selected)) == values
    decreases |values|
  {
    if |values| > 0 {
      var front := values[..|values| - 1];
      assert forall e :: e in front ==> e in values;
      EverythingSelected(front, selected);
      assert front + [values[|values| - 1]] == values;
    }
  }
}

=== FILE: templates.dfy ===
/** The graph-paper templates: the element factory and the two generators
    that packages/excalidraw/components/Graphs.tsx and
    packages/excalidraw/components/FlowchartDropdown.tsx define identically.
    The generated list is what the source hands to `addElementsViaAction`;
    the React state around it is not modelled. Element `k` of a generated
    list draws its random numbers and clock readings from `rnd(k)`. */
module Templates {
  import opened Outcomes
  import opened Elements

  const Grey := "#cccccc"

  /** `element-${Date.now()}-${Math.random()}`. */
  function StampedId(prefix: string, r: Entropy): ElementId {
    ElementId.Stamped(prefix, r.clock, r.token)
  }

  /** `createElement(type, x, y, width, height, extra)`: thin black
      transparent-filled element with no roundness, overridden field by
      field by `extra`. */
  function CreateElement(kind: string, x: real, y: real, width: real, height: real, extra: Extra, r: Entropy)
    : (e: Element)
    ensures Fresh(e)
    ensures e.x == x && e.y == y && e.width == width && e.height == height
    ensures e.elementType == extra.elementType.GetOr(kind)
    ensures e.strokeColor == extra.strokeColor.GetOr(Black)
    ensures e.backgroundColor == extra.backgroundColor.GetOr("transparent")
    ensures e.strokeWidth == extra.strokeWidth.GetOr(1)
    ensures e.roundness == extra.roundness.GetOr(None)
    ensures e.points == extra.points.GetOr([])
    ensures e.endArrowhead == extra.endArrowhead
    ensures e.id == extra.id.GetOr(StampedId("element", r))
  {
    var base := Element(
      kind, x, y, width, height, 0.0, Black, "transparent", "solid", 1, "solid", 0, 100, None,
      r.seed, 1, r.versionNonce, false, r.updated, false, StampedId("element", r), [], None, None);
    Spread(base, extra)
  }

  /** An `extra` that names every overridable field replaces every default. */
  lemma ExtraOverridesEveryDefault(kind: string, x: real, y: real, width: real, height: real, extra: Extra, r: Entropy)
    requires extra.elementType.Some? && extra.strokeColor.Some? && extra.backgroundColor.Some?
    requires extra.strokeWidth.Some? && extra.roundness.Some? && extra.points.Some? && extra.id.Some?
    ensures var e := CreateElement(kind, x, y, width, height, extra, r);
            && e.elementType == extra.elementType.value && e.strokeColor == extra.strokeColor.value
            && e.backgroundColor == extra.backgroundColor.value && e.strokeWidth == extra.strokeWidth.value
            && e.roundness == extra.roundness.value && e.points == extra.points.value && e.id == extra.id.value
  {
  }

  // ---- 14x14 grid ----

  /** Vertical grid line `i` (0 to 14): a 420-long line at x = 100 + 30i. */
  predicate GridVertical(e: Element, i: int) {
    && e.elementType == "line" && Fresh(e)
    && e.x == (100 + 30 * i) as real && e.y == 100.0 && e.width == 0.0 && e.height == 420.0
    && e.points == [Point(0.0, 0.0), Point(0.0, 420.0)]
    && e.strokeWidth == 1 && e.strokeColor == Black
  }

  /** Horizontal grid line `i` (0 to 14): a 420-long line at y = 100 + 30i. */
  predicate GridHorizontal(e: Element, i: int) {
    && e.elementType == "line" && Fresh(e)
    && e.x == 100.0 && e.y == (100 + 30 * i) as real && e.width == 420.0 && e.height == 0.0
    && e.points == [Point(0.0, 0.0), Point(420.0, 0.0)]
    && e.strokeWidth == 1 && e.strokeColor == Black
  }

  /** `generate14x14Grid`: fifteen vertical lines, then fifteen horizontal ones. */
  method Generate14x14Grid(rnd: nat -> Entropy) returns (elements: seq<Element>)
    ensures |elements| == 30
    ensures forall k :: 0 <= k < 15 ==> GridVertical(elements[k], k)
    ensures forall k :: 15 <= k < 30 ==> GridHorizontal(elements[k], k - 15)
  {
    elements := [];
    var i := 0;
    while i <= 14
      invariant 0 <= i <= 15 && |elements| == i
      invariant forall k :: 0 <= k < i ==> GridVertical(elements[k], k)
    {
      var line := CreateElement("line", (100 + i * 30) as real, 100.0, 0.0, 420.0,
                                NoExtra.(points := Some([Point(0.0, 0.0), Point(0.0, 420.0)])), rnd(|elements|));
      elements := elements + [line];
      i := i + 1;
    }
    i := 0;
    while i <= 14
      invariant 0 <= i <= 15 && |elements| == 15 + i
      invariant forall k :: 0 <= k < 15 ==> GridVertical(elements[k], k)
      invariant forall k :: 15 <= k < |elements| ==> GridHorizontal(elements[k], k - 15)
    {
      var line := CreateElement("line", 100.0, (100 + i * 30) as real, 420.0, 0.0,
                                NoExtra.(points := Some([Point(0.0, 0.0), Point(420.0, 0.0)])), rnd(|elements|));
      elements := elements + [line];
      i := i + 1;
    }
  }

  /** The grid lines are evenly spaced 30 apart and close a 420 by 420
      square: every vertical line spans every horizontal one and the reverse. */
  lemma GridClosesSquare(elements: seq<Element>)
    requires |elements| == 30
    requires forall k :: 0 <= k < 15 ==> GridVertical(elements[k], k)
    requires forall k :: 15 <= k < 30 ==> GridHorizontal(elements[k], k - 15)
    ensures forall i, j :: 0 <= i < j < 15 ==> elements[j].x - elements[i].x == (30 * (j - i)) as real
    ensures forall i, j :: 15 <= i < j < 30 ==> elements[j].y - elements[i].y == (30 * (j - i)) as real
    ensures forall i, j :: 0 <= i < 15 <= j < 30 ==>
              && elements[j].x <= elements[i].x <= elements[j].x + elements[j].width
              && elements[i].y <= elements[j].y <= elements[i].y + elements[i].height
  {
    forall i, j | 0 <= i < j < 15 ensures elements[j].x - elements[i].x == (30 * (j - i)) as real {
      assert GridVertical(elements[i], i) && GridVertical(elements[j], j);
    }
    forall i, j | 15 <= i < j < 30 ensures elements[j].y - elements[i].y == (30 * (j - i)) as real {
      assert GridHorizontal(elements[i], i - 15) && GridHorizontal(elements[j], j - 15);
    }
    forall i, j | 0 <= i < 15 <= j < 30
      ensures && elements[j].x <= elements[i].x <= elements[j].x + elements[j].width
              && elements[i].y <= elements[j].y <= elements[i].y + elements[i].height
    {
      assert GridVertical(elements[i], i) && GridHorizontal(elements[j], j - 15);
    }
  }

  // ---- axes ----

  /** The axis lines (offset 0) are black and twice as wide as the grey grid lines. */
  function AxisWidth(i: int): int {
    if i == 0 then 2 else 1
  }

  function AxisColor(i: int): string {
    if i == 0 then Black else Grey
  }

  /** Vertical axes-grid line at offset `i` (-7 to 7) from the centre (300, 300). */
  predicate AxesVertical(e: Element, i: int) {
    && e.elementType == "line" && Fresh(e)
    && e.x == (300 + 30 * i) as real && e.y == 90.0 && e.width == 0.0 && e.height == 420.0
    && e.points == [Point(0.0, 0.0), Point(0.0, 420.0)]
    && e.strokeWidth == AxisWidth(i) && e.strokeColor == AxisColor(i)
  }

  /** Horizontal axes-grid line at offset `i` (-7 to 7) from the centre. */
  predicate AxesHorizontal(e: Element, i: int) {
    && e.elementType == "line" && Fresh(e)
    && e.x == 90.0 && e.y == (300 + 30 * i) as real && e.width == 420.0 && e.height == 0.0
    && e.points == [Point(0.0, 0.0), Point(420.0, 0.0)]
    && e.strokeWidth == AxisWidth(i) && e.strokeColor == AxisColor(i)
  }

  /** An axis arrowhead: an arrow of length 15 from `(x, y)` along `(dx, dy)`. */
  predicate AxisArrow(e: Element, x: real, y: real, dx: real, dy: real) {
    && e.elementType == "arrow" && Fresh(e)
    && e.x == x && e.y == y && e.width == dx && e.height == dy
    && e.points == [Point(0.0, 0.0), Point(dx, dy)]
    && e.strokeWidth == 2 && e.strokeColor == Black && e.endArrowhead == Some("arrow")
  }

  function ArrowExtra(dx: real, dy: real): Extra {
    NoExtra.(elementType := Some("arrow"), points := Some([Point(0.0, 0.0), Point(dx, dy)]),
             strokeWidth := Some(2), endArrowhead := Some("arrow"))
  }

  /** `generate7x7Axes`: fifteen vertical lines and fifteen horizontal lines
      for offsets -7 to 7, then the four arrowheads right, up, left, down. */
  method Generate7x7Axes(rnd: nat -> Entropy) returns (elements: seq<Element>)
    ensures |elements| == 34
    ensures forall k :: 0 <= k < 15 ==> AxesVertical(elements[k], k - 7)
    ensures forall k :: 15 <= k < 30 ==> AxesHorizontal(elements[k], k - 22)
    ensures AxisArrow(elements[30], 510.0, 300.0, 15.0, 0.0)
    ensures AxisArrow(elements[31], 300.0, 90.0, 0.0, -15.0)
    ensures AxisArrow(elements[32], 90.0, 300.0, -15.0, 0.0)
    ensures AxisArrow(elements[33], 300.0, 510.0, 0.0, 15.0)
  {
    elements := [];
    var i := -7;
    while i <= 7
      invariant -7 <= i <= 8 && |elements| == i + 7
      invariant forall k :: 0 <= k < |elements| ==> AxesVertical(elements[k], k - 7)
    {
      var extra := NoExtra.(points := Some([Point(0.0, 0.0), Point(0.0, 420.0)]),
                            strokeWidth := Some(if i == 0 then 2 else 1),
                            strokeColor := Some(if i == 0 then Black else Grey));
      elements := elements + [CreateElement("line", (300 + i * 30) as real, 90.0, 0.0, 420.0, extra, rnd(|elements|))];
      i := i + 1;
    }
    i := -7;
    while i <= 7
      invariant -7 <= i <= 8 && |elements| == 15 + i + 7
      invariant forall k :: 0 <= k < 15 ==> AxesVertical(elements[k], k - 7)
      invariant forall k :: 15 <= k < |elements| ==> AxesHorizontal(elements[k], k - 22)
    {
      var extra := NoExtra.(points := Some([Point(0.0, 0.0), Point(420.0, 0.0)]),
                            strokeWidth := Some(if i == 0 then 2 else 1),
                            strokeColor := Some(if i == 0 then Black else Grey));
      elements := elements + [CreateElement("line", 90.0, (300 + i * 30) as real, 420.0, 0.0, extra, rnd(|elements|))];
      i := i + 1;
    }
    var lines := elements;
    elements := lines + [
      CreateElement("line", 510.0, 300.0, 15.0, 0.0, ArrowExtra(15.0, 0.0), rnd(30)),
      CreateElement("line", 300.0, 90.0, 0.0, -15.0, ArrowExtra(0.0, -15.0), rnd(31)),
      CreateElement("line", 90.0, 300.0, -15.0, 0.0, ArrowExtra(-15.0, 0.0), rnd(32)),
      CreateElement("line", 300.0, 510.0, 0.0, 15.0, ArrowExtra(0.0, 15.0), rnd(33))];
    assert forall k :: 0 <= k < 30 ==> elements[k] == lines[k];
  }

  /** Only the two axis lines are drawn heavy and black, and they cross at
      the centre, each running from 90 to 510. */
  lemma AxesHighlightOnlyCentre(elements: seq<Element>)
    requires |elements| == 34
    requires forall k :: 0 <= k < 15 ==> AxesVertical(elements[k], k - 7)
    requires forall k :: 15 <= k < 30 ==> AxesHorizontal(elements[k], k - 22)
    ensures forall k :: 0 <= k < 30 ==> (elements[k].strokeWidth == 2 <==> k == 7 || k == 22)
    ensures forall k :: 0 <= k < 30 ==> (elements[k].strokeColor == Black <==> k == 7 || k == 22)
    ensures elements[7].x == 300.0 && elements[22].y == 300.0
    ensures elements[7].y == 90.0 && elements[7].y + elements[7].height == 510.0
    ensures elements[22].x == 90.0 && elements[22].x + elements[22].width == 510.0
  {
    forall k | 0 <= k < 30
      ensures elements[k].strokeWidth == 2 <==> k == 7 || k == 22
      ensures elements[k].strokeColor == Black <==> k == 7 || k == 22
    {
      if k < 15 {
        assert AxesVertical(elements[k], k - 7);
      } else {
        assert AxesHorizontal(elements[k], k - 22);
      }
    }
    assert AxesVertical(elements[7], 0);
    assert AxesHorizontal(elements[22], 0);
  }

  /** Each arrowhead starts where an axis ends and points away from the
      centre: right and left from the two ends of the horizontal axis, up
      and down from the two ends of the vertical one. */
  lemma ArrowheadsAtAxisEnds(elements: seq<Element>)
    requires |elements| == 34
    requires AxesVertical(elements[7], 0) && AxesHorizontal(elements[22], 0)
    requires AxisArrow(elements[30], 510.0, 300.0, 15.0, 0.0)
    requires AxisArrow(elements[31], 300.0, 90.0, 0.0, -15.0)
    requires AxisArrow(elements[32], 90.0, 300.0, -15.0, 0.0)
    requires AxisArrow(elements[33], 300.0, 510.0, 0.0, 15.0)
    ensures var h, v := elements[22], elements[7];
            && elements[30].x == h.x + h.width && elements[30].y == h.y && elements[30].width > 0.0
            && elements[32].x == h.x && elements[32].y == h.y && elements[32].width < 0.0
            && elements[31].x == v.x && elements[31].y == v.y && elements[31].height < 0.0
            && elements[33].x == v.x && elements[33].y == v.y + v.height && elements[33].height > 0.0
  {
  }
}
